=== FILE: README.md ===
# Federal Register chat agent — ingest and query model

A Dafny model of the core of a small Federal Register assistant: the ingest
pipeline that normalises document records, upserts them into a SQLite
`documents` table and sweeps old snapshot files, and the query side that
validates a date window, searches the table with `LIKE`, summarises long
abstracts and formats the answer, together with the `/chat` endpoint's
parsing of the `(type: …)` filter and the `executive order` keyword.

Modules, in dependency order:

- `Wrappers` — `Option`.
- `Text` — Python's `str.strip` (the full `isspace` set), `in`, `split`,
  `replace(')', '')` and an ASCII `lower`.
- `Dates` — `datetime.strptime(s, "%Y-%m-%d")` as the pattern and calendar
  check it applies, `strftime("%Y-%m-%d")`, and SQLite's text order.
- `SqlLike` — SQLite's `LIKE` (`%`, `_`, ASCII case folding, no escape).
- `Documents` — the document record, `process_data`, `MOCK_DATA`,
  `download_data`.
- `Store` — the `documents` table as its rows in rowid order, `INSERT OR
  REPLACE`, and `store_to_sqlite` with the places a database error can
  interrupt it.
- `Retention` — `clean_old_files`.
- `Pipeline` — `run_pipeline`.
- `Query` — `fetch_documents_from_db`.
- `Ui` — the suffix the chat page appends to a query.
- `Agent` — `summarize_text`, the reply text, the `(type:` parsing and
  `run_agent`.
- `Api` — the parsing and exception handling in `chat`.

The clock, the file listing, the summarisation service, the response
generator and the points where SQLite or the file system fail are inputs
to the model's functions.

## Model

| member | source | states |
|---|---|---|
| Text.Strip | agent.py:28 | the result is a contiguous slice of the input, neither end of it is whitespace, and everything cut off on either side is whitespace |
| Text.StripEmptyIffBlank | agent.py:28-29 | `not query.strip()` holds exactly when the query is empty or all whitespace |
| Text.StripIdempotent | agent.py:75 | stripping a stripped text changes nothing |
| Text.StripSpaceAround | api.py:27 | whitespace added around a text does not change its stripped form |
| Text.StripSpaceAfter | agent.py:75 | whitespace added after a text, such as the space before an appended filter, does not change its stripped form |
| Text.StripOfPadded | agent.py:75 | a text without whitespace at its ends, padded with whitespace, strips back to itself |
| Text.StripSubset | agent.py:75 | every character of the stripped text occurs in the input |
| Text.Find | agent.py:74 | the result is present iff the pattern occurs, and it is the least position where it occurs |
| Text.FindFrom | agent.py:74 | a result is an occurrence at or after the start, with none between the start and it; no result means no occurrence from the start on |
| Text.Split | agent.py:74 | joining the parts with the separator gives back the input, no part contains the separator, there are several parts iff the separator occurs, and the first part ends at its first occurrence |
| Text.RemoveAll | agent.py:76 | no `)` remains, only input characters appear, and a text without `)` is unchanged |
| Text.SplitFirstTwo | agent.py:74-76 | when the separator occurs, `parts[0]` is the text before its first occurrence and `parts[1]` the text after it up to the next occurrence, or to the end |
| Text.RemoveAllConcat | agent.py:76 | removing a character distributes over concatenation |
| Text.Lower | api.py:25 | same length; no ASCII capital is left; a capital becomes the letter 32 code points above it and every other character is kept in place |
| Text.LowerIdempotent | api.py:25 | lower-casing an already lower-cased text changes nothing |
| Dates.ParseDate | agent.py:24-25 | an accepted text denotes a real calendar date |
| Dates.ParseDateCases | agent.py:24-25 | leap days follow the calendar, unpadded month and day are accepted, and trailing text, other separators and month 13 are rejected |
| Dates.ParseFormatted | agent.py:78-79 | a date rendered as `YYYY-MM-DD` parses back to the same date |
| Dates.Pad2Value | agent.py:79 | the two-digit rendering reads back as its number |
| Dates.Pad4Value | agent.py:79 | the four-digit rendering reads back as its number |
| Dates.DigitChar | agent.py:79 | the digit character has the requested value |
| Dates.TextLeReflexive | agent.py:36 | text order is reflexive, so `BETWEEN` includes its ends |
| Dates.TextLeTransitive | agent.py:36 | text order is transitive |
| Dates.TextLeTotal | agent.py:36 | any two texts are comparable |
| Dates.TextLeAntisymmetric | agent.py:36 | texts that are each at most the other are equal |
| Dates.TextLeConcat | agent.py:36 | when the leading parts have one length, they decide the comparison unless they are equal |
| Dates.DigitsOrder | agent.py:36 | digit strings of one length compare as text exactly as their values compare, and are equal iff their values are |
| Dates.FormatDateOrder | agent.py:36 | formatted dates compare as text exactly as the dates compare on the calendar |
| SqlLike.Surround | agent.py:39 | the pattern is `%`, then the query itself, then `%` |
| SqlLike.PercentMatchesAll | agent.py:37 | `%` alone matches every text |
| SqlLike.LikePrefix | agent.py:37 | for a pattern without wildcards, `q%` matches exactly the texts beginning with `q` ignoring ASCII case |
| SqlLike.LikeLeadingPercent | agent.py:37 | a leading `%` matches iff the rest of the pattern matches some suffix |
| SqlLike.FoldPrefixIsOccurrence | agent.py:37 | a case-folded prefix match at a position is an occurrence of the lower-cased query in the lower-cased text there |
| SqlLike.LikeSurroundedIsSubstring | agent.py:37-39 | for a query without `%` or `_`, `LIKE '%q%'` holds iff the query occurs in the text ignoring ASCII case |
| Documents.Normalise | pipeline.py:49-55 | each field is the raw value when present and `""` otherwise; the abstract falls back to `summary` when missing or empty |
| Documents.ToRaw | pipeline.py:49-55 | a document as a raw record has exactly the five field names as keys |
| Documents.NormaliseToRaw | pipeline.py:49-55 | normalising a document's own raw form gives back the document |
| Documents.NormaliseIgnoresOtherFields | pipeline.py:49-55 | keys other than the five fields and `summary` do not affect the result |
| Documents.ProcessData | pipeline.py:46-59 | one output per input, in order, each the normalised record |
| Documents.ProcessDataConcat | pipeline.py:46-59 | processing distributes over concatenation of batches |
| Documents.DownloadData | pipeline.py:42-44 | the download is the two built-in records, numbered `2024-12345` and `2024-12346`, whatever the window |
| Store.KeysAt | pipeline.py:65 | a number is a key of the table iff some row carries it |
| Store.KeysSnoc | pipeline.py:67 | appending a row adds its number to the keys |
| Store.UniqueSnoc | pipeline.py:65 | appending keeps keys unique iff the new number was absent |
| Store.RemoveKeys | pipeline.py:67 | deleting the rows with given numbers removes exactly those keys |
| Store.RemoveKeysUnique | pipeline.py:65-67 | deleting rows keeps the primary key unique |
| Store.Upsert | pipeline.py:67-68 | `INSERT OR REPLACE` adds the number to the keys and the new row comes last |
| Store.UpsertUnique | pipeline.py:65-68 | `INSERT OR REPLACE` keeps the primary key unique |
| Store.UpsertAll | pipeline.py:66-68 | the keys after the loop are the old keys plus the batch's numbers |
| Store.UpsertAllUnique | pipeline.py:65-68 | the loop keeps the primary key unique |
| Store.UpsertAllShape | pipeline.py:66-68 | after the loop, the old rows not in the batch keep their order, followed by the batch's rows |
| Store.RemoveKeysConcat | pipeline.py:67 | deletion distributes over concatenation |
| Store.RemoveKeysTwice | pipeline.py:67 | deleting two key sets in turn deletes their union |
| Store.RemoveKeysOfCovered | pipeline.py:67 | deleting every key empties the table |
| Store.RemoveKeysNone | pipeline.py:67 | deleting no keys changes nothing |
| Store.RemoveCoveredTail | pipeline.py:67 | deleting a key set that covers a tail removes all of that tail |
| Store.UpsertAllIdempotent | pipeline.py:66-68 | storing the same batch again leaves the table, row order included, as it was |
| Store.MapUpsertAll | pipeline.py:66-68 | the keyed view has the old keys plus the batch's numbers |
| Store.RemoveKeysKeeps | pipeline.py:67 | deleting keys keeps every row whose key is not deleted |
| Store.LastRowStored | pipeline.py:66-69 | a batch row that no later batch row with the same number replaces is a row of the table after the batch |
| Store.LastWithKey | pipeline.py:66-68 | there is a batch row with a number iff the number is in the batch, and the row returned carries the number and has no later batch row with the same number after it |
| Store.MapUpsertAllLastWins | pipeline.py:66-68 | the stored row for a number in the batch is the batch's last row with it; other rows stay |
| Store.MapUpsertAllIdempotent | pipeline.py:66-68 | applying a batch twice to the keyed view equals applying it once |
| Store.MapUpsertAllConcat | pipeline.py:66-68 | storing two batches in turn equals storing their concatenation |
| Store.MapUpsertAllRemove | pipeline.py:67 | deleting a key before or after storing rows gives the same keyed view |
| Store.MapUpdateThenRemove | pipeline.py:67 | writing a key and then deleting it equals deleting it |
| Store.MapRemoveThenUpdate | pipeline.py:67 | deleting one key and writing another commute |
| Store.MapUpsertAllSnoc | pipeline.py:67 | storing one more row writes it under its number |
| Store.UpsertAllAsMap | pipeline.py:66-68 | the row-order table and the keyed view agree after any batch |
| Store.UniqueKeysCount | pipeline.py:70-71 | with unique keys, the row count equals the number of keys |
| Store.UpsertAllCount | pipeline.py:66-71 | after the loop, the row count is the number of distinct old and new numbers |
| Store.StoreToSqlite | pipeline.py:61-77 | an error before the table exists changes nothing; one during the inserts rolls back to the old rows, with the table created; otherwise the batch is upserted; the logged count is the number of distinct numbers; it is logged iff the count query succeeds, so also when the later sample query fails |
| Retention.Sweep | pipeline.py:79-90 | every entry is either deleted or kept, and kept entries come from the listing |
| Retention.SweepStopsAtFailure | pipeline.py:80-90 | when the first failing removal is at entry `i`, the sweep is that of the entries before `i`, and entry `i` and every later entry stay |
| Retention.SweepFailureEntries | pipeline.py:80-90 | with the first failing removal at `i`, the deleted names are those of the stale files before `i`, and an entry stays iff it is at or after `i` or is not stale |
| Retention.SweepWithoutFailure | pipeline.py:79-90 | when no removal fails, exactly the regular files older than the threshold are deleted and every other entry is kept |
| Retention.SweepKeepsNonFiles | pipeline.py:84 | directories and other non-files are never deleted |
| Retention.SweepKeepsFresh | pipeline.py:86 | an entry that is not stale always survives, whatever removals fail |
| Retention.ThresholdFileSurvives | pipeline.py:86 | a file exactly seven days old is kept, because the comparison is strict |
| Retention.SweepEightAndSixDays | pipeline.py:81-87 | an eight-day-old file is deleted and a six-day-old one kept |
| Retention.CleanOldFiles | pipeline.py:79-90 | the loop deletes and keeps what the sweep specifies, and deletes only stale files from the listing |
| Pipeline.WriteSnapshot | pipeline.py:56-58 | the snapshot is in the directory with the current time, every other entry was already there, and every entry with another name stays |
| Pipeline.RunPipeline | pipeline.py:92-105 | an empty download, or a snapshot whose `open` fails, leaves everything unchanged; a `json.dump` that fails after `open` leaves the table as it was and the created or truncated snapshot in the directory, with no sweep; otherwise the table is what `store_to_sqlite` leaves, whatever database error it catches, and the directory is then what the sweep leaves of the directory with the new snapshot; the directory afterwards holds only old entries and the new snapshot |
| Pipeline.MockRunFillsStore | pipeline.py:92-101 | a run on the built-in data that gets past the inserts leaves both normalised built-in documents as rows of the table |
| Pipeline.StoredRowsOfTwo | pipeline.py:66-69 | a run past the inserts on two records with different numbers leaves both normalised records as rows |
| Pipeline.SnapshotSurvives | pipeline.py:100-102 | the snapshot a run writes survives the same run's sweep |
| Pipeline.RerunKeepsTable | pipeline.py:92-102 | after a successful run, running again on the same download leaves the table unchanged, whatever the second run's snapshot outcome and database fault |
| Query.Select | agent.py:33-44 | a row is returned iff it is in the table and satisfies the `WHERE` clause, in table order |
| Query.SelectConcat | agent.py:43-44 | selection keeps table order |
| Query.FetchDocuments | agent.py:21-48 | invalid dates give the date error, then a blank query gives the empty-query error; rows come back iff both checks pass and the database answers, and the rows are exactly the matching ones; a missing table gives `Database query failed: no such table: documents`, and any other database error `Database query failed: ` followed by its message |
| Query.DbError | agent.py:46-48 | a database failure is the error `Database query failed: ` followed by the cause, and is distinct from the two validation errors |
| Query.DateBoundsInclusive | agent.py:36 | a matching row dated on either bound is returned |
| Query.CalendarWindow | agent.py:33-44 | for rows dated `YYYY-MM-DD`, a row is returned iff it falls between the two dates on the calendar, both ends included, and matches the text and type conditions |
| Query.SubstringSearch | agent.py:33-44 | for a query without wildcards, a row is returned iff it is in range, has the type, and contains the query in its title or abstract ignoring ASCII case |
| Query.NoTypeEqualsEmptyType | agent.py:40-42 | no type and the empty type give the same result |
| Query.SelectSameMatches | agent.py:40-42 | any two inactive type filters select the same rows |
| Query.AllIsLiteralType | agent.py:40-42 | asking for type `All` returns only rows whose type is literally `All` |
| Ui.UiQuery | ui.py:32-33 | the typed query is always a prefix of what is sent, and it is sent unchanged iff `All` is selected |
| Agent.SummarizeText | agent.py:50-65 | a text under 250 characters comes back unchanged; a longer one comes back as the service's summary, or unchanged when the service fails |
| Agent.ShortTextSkipsService | agent.py:52-53 | for a short text the service is never consulted |
| Agent.SummariseAbstracts | agent.py:86-88 | only abstracts change, empty abstracts stay empty, and each non-empty one is replaced by its summary |
| Agent.FailingServiceKeepsAbstracts | agent.py:63-65 | with a failing service, the documents are unchanged |
| Agent.FormatResponse | agent.py:90-93 | the reply starts with the `Found documents:` header |
| Agent.LinesConcat | agent.py:91-92 | the listing of two lists is the two listings one after the other |
| Agent.FormatResponseLists | agent.py:90-93 | each document's line appears in the reply, after the lines of the documents before it |
| Agent.ParseTypeFilter | agent.py:72-76 | without the marker, the query is unchanged with no type; with it, the text is the stripped part before the first marker, and the type is the part between the first and the second marker (or the end), with every `)` removed, stripped |
| Agent.MarkerAfter | agent.py:73-74 | a marker appended after a marker-free text is the first occurrence |
| Agent.NoMarkerInTail | agent.py:74 | the appended tail adds no second marker |
| Agent.SplitAppended | agent.py:74 | splitting an appended query gives exactly the text and the tail |
| Agent.TypeOfAppended | agent.py:76 | the type read from the tail is the stripped selected type |
| Agent.ParseAppended | agent.py:72-76 | parsing a text with ` (type: X)` appended gives back the stripped text and type |
| Agent.ParseUiQuery | agent.py:72-76 | parsing the chat page's query gives back the typed text and the selected type |
| Agent.ParseUiQueryAll | agent.py:72-76 | with `All` selected there is no marker, so no type filter |
| Agent.SpelledOutAllIsLiteral | agent.py:72-76 | a query ending in `(type: All)` filters for the literal type `All` |
| Agent.StripUnchanged | agent.py:75 | a text without whitespace at its ends strips to itself |
| Agent.RunAgent | agent.py:67-96 | blank queries get the empty-query reply, bad dates the date error; otherwise a database error is the reply, no rows gives `No documents found.`, and rows give the formatted list of their summarised documents |
| Agent.RunAgentAnswers | agent.py:67-93 | for a valid window and a searchable text, the reply lists exactly the matching rows, or reports that none were found |
| Agent.RunAgentAsWritten | agent.py:67-96 | a blank query gets the empty-query reply and every other query gets the `timedelta` error message |
| Agent.TimedeltaFinding | agent.py:78 | the query `order` on an empty table gets the error message instead of `No documents found.` |
| Api.LowerKeepsOccurrence | api.py:25 | an occurrence of a lower-case pattern survives lower-casing |
| Api.ChatQueryAsWritten | api.py:23-30 | the parse fails iff the lower-cased query holds the marker and the query does not; an exact marker is parsed as in the agent; otherwise the keyword sets `Executive Order` and the text is unchanged |
| Api.ChatQuery | api.py:23-30 | a type is chosen iff the query holds the marker or mentions executive orders; without a type the text is the query, and the text changes only when the marker occurs |
| Api.ChatQueryAgrees | api.py:23-30 | wherever the original parse succeeds, the corrected one gives the same result |
| Api.Respond | api.py:31-36 | every reply is either the generator's text or starts with `Agent error: `; an exception's message follows that prefix |
| Api.ChatAsWritten | api.py:21-36 | the endpoint crashes with an index error exactly when the parse fails, and otherwise replies as the generator or its exception dictates |
| Api.Chat | api.py:21-36 | the corrected endpoint always replies, with the same reply as the original wherever the original replies |
| Api.UpperCaseMarkerCrashes | api.py:25-28 | the query `(TYPE: Rule)` crashes the original and is answered by the corrected endpoint with no type filter |
| Api.ChatUiQuery | api.py:25-28 | a query from the chat page with a type selected reaches the generator with the stripped text and type |
| Api.MarkerBeatsKeyword | api.py:25-30 | a selected type overrides the keyword; without one, a query mentioning executive orders asks for `Executive Order` |

## Left out

- Connections, cursors, `CREATE TABLE` text and `SELECT` strings are not modelled as SQL. The table is a sequence of rows in rowid order. `INSERT OR REPLACE` deletes the old row and appends the new one.
- The result of the sample query in `store_to_sqlite` (pipeline.py:73-75) and all logging are left out: they only write to the log. Only whether the sample query fails is modelled.
- `download_data` ignores its window and the network. `API_URL` is unused, so the HTTP download is not modelled.
- `summarize_text`'s HTTP call to the summarisation service is the `service` parameter. Any exception, a non-2xx status or a missing `summary` key counts as one failure.
- Agent.SummariseAbstracts: `service` is a function of the text, so every call on the same abstract within one reply gets the same outcome. The real HTTP calls are independent: one can hit a rate limit or a transient error while another with the same text succeeds, or return a different summary. The model does not describe a reply in which two documents with equal abstracts are summarised differently.
- The JSON content of the processed snapshot is not modelled, only the file's existence and time. `os.makedirs(DATA_DIR)` at import is assumed to have succeeded.
- Raw records are maps from string to string. JSON `null`, numbers and nested values in a downloaded record are not modelled.
- Documents.Normalise: a raw `abstract` that is present but falsy other than `""` (for example `null`) is not modelled, because values are strings.
- The clock is the `now` parameter. The snapshot write and the sweep see the same instant. Local-time conversion and daylight-saving effects of `datetime.fromtimestamp` are not modelled: times are microseconds on one scale.
- Dates.ParseDate: Unicode decimal digits, which Python's `\d` also accepts, are not modelled; only ASCII digits are. Years outside 1..9999 are rejected, as `datetime` does.
- Text.Lower: only ASCII letters are lower-cased. This is exact for the patterns `(type:` and `executive order`. For other characters a query could contain, the full Unicode mapping is not modelled.
- Query.FetchDocuments: the database error text is a parameter (`fault`). A missing table gives SQLite's `no such table` message.
- `asyncio`, the FastAPI application, `startup_event` (api.py:16-19) and the Streamlit page other than its query suffix (ui.py) are not modelled.
- `generate_response`, which api.py imports from agent.py, is not defined there. As written, api.py therefore fails at import. `chat` is modelled with the generator as a parameter.
- Retention.Sweep: the listing order is an input, and `os.listdir`'s order is unspecified. A failure of `os.listdir` or `getmtime` is not modelled; only failing removals are.

## Behaviour of the code that its interface does not suggest

- `(type: All)` typed by hand is a literal filter for documents whose type is `All`. Only the chat page's own `All` selection means "no filter" (`Agent.SpelledOutAllIsLiteral`, `Query.AllIsLiteralType`).
- `clean_old_files` has one `try` around the whole loop. A failing removal therefore ends the sweep: that file and every later entry stay (`Retention.SweepStopsAtFailure`).
- `run_pipeline` writes only the processed snapshot. No raw snapshot is written.

## Findings

| source | as written | input that shows it | evidently intended | confidence | as-written member | corrected member |
|---|---|---|---|---|---|---|
| agent.py:78 | `timedelta` is used but only `datetime` is imported (agent.py:5), so every non-blank query raises `NameError`, and the reply is `Agent error: name 'timedelta' is not defined` | the query `order` on an empty table | search the last 30 days and answer `No documents found.` | high; not executed | Agent.RunAgentAsWritten | Agent.RunAgent |
| api.py:25-28 | the marker is detected in the lower-cased query but split on the query itself, so for a marker in other cases `parts[1]` raises `IndexError` outside the `try` | the query `(TYPE: Rule)` | detection and split agree, so the request gets a reply | high; not executed | Api.ChatAsWritten | Api.Chat |

=== FILE: agent.dfy ===
/**
 * `summarize_text` and `run_agent`: the length-gated summariser with its
 * fallback, the `(type: X)` filter convention, and the reply text. The
 * remote summariser is a parameter; `run_agent`'s 30-day window arrives as
 * its two date strings.
 */
module Agent {
  import opened Wrappers
  import opened Text
  import opened Dates
  import opened Documents
  import opened Store
  import opened Query
  import opened Ui

  // ---------------------------------------------------------------------
  // Summarisation

  /** Texts shorter than this are returned without a remote call. */
  const MIN_SUMMARY_LENGTH: nat := 250

  /** What one call to the remote summariser yields: the summary, or any
      failure (HTTP error status, transport error, a reply without
      `summary`). */
  datatype ServiceReply = Summarised(summary: string) | ServiceFailed

  /** `summarize_text`. It never fails: the result is the text itself or the
      service's summary of it. */
  function SummarizeText(text: string, service: string -> ServiceReply): (r: string)
    ensures |text| < MIN_SUMMARY_LENGTH ==> r == text
    ensures r == text || service(text) == Summarised(r)
    ensures |text| >= MIN_SUMMARY_LENGTH && service(text).Summarised? ==> r == service(text).summary
  {
    if |text| < MIN_SUMMARY_LENGTH then text
    else match service(text)
      case Summarised(s) => s
      case ServiceFailed => text
  }

  /** A short text is never sent: the service cannot influence the result. */
  lemma ShortTextSkipsService(text: string, s1: string -> ServiceReply, s2: string -> ServiceReply)
    requires |text| < MIN_SUMMARY_LENGTH
    ensures SummarizeText(text, s1) == SummarizeText(text, s2)
  {
  }

  /** The loop of `run_agent` that replaces each non-empty abstract with its
      summary. */
  function SummariseAbstracts(docs: seq<Document>, service: string -> ServiceReply): (r: seq<Document>)
    ensures |r| == |docs|
    ensures forall i :: 0 <= i < |docs| ==> r[i].(abstractText := docs[i].abstractText) == docs[i]
    ensures forall i :: 0 <= i < |docs| && docs[i].abstractText == "" ==> r[i].abstractText == ""
    ensures forall i :: 0 <= i < |docs| && docs[i].abstractText != "" ==>
              r[i].abstractText == SummarizeText(docs[i].abstractText, service)
  {
    if |docs| == 0 then []
    else
      var d := docs[|docs| - 1];
      var a := if d.abstractText != "" then SummarizeText(d.abstractText, service) else d.abstractText;
      SummariseAbstracts(docs[..|docs| - 1], service) + [d.(abstractText := a)]
  }

  /** When every remote call fails, the documents keep their abstracts. */
  lemma FailingServiceKeepsAbstracts(docs: seq<Document>, service: string -> ServiceReply)
    requires forall t :: service(t) == ServiceFailed
    ensures SummariseAbstracts(docs, service) == docs
  {
    var r := SummariseAbstracts(docs, service);
    forall i | 0 <= i < |docs| ensures r[i] == docs[i] {
      assert r[i].abstractText == docs[i].abstractText;
    }
  }

  // ---------------------------------------------------------------------
  // Reply text

  const HEADER: string := "Found documents:\n"
  const NO_DOCUMENTS: string := "No documents found."
  const EMPTY_QUERY_REPLY: string := "Error: Query cannot be empty."

  /** `- {title} ({date}, {type}): {abstract}` and a newline. */
  function Line(d: Document): string {
    "- " + d.title + " (" + d.publicationDate + ", " + d.docType + "): " + d.abstractText + "\n"
  }

  function Lines(docs: seq<Document>): string {
    if |docs| == 0 then "" else Lines(docs[..|docs| - 1]) + Line(docs[|docs| - 1])
  }

  function FormatResponse(docs: seq<Document>): (r: string)
    ensures |r| >= |HEADER| && r[..|HEADER|] == HEADER
  {
    HEADER + Lines(docs)
  }

  lemma {:induction false} LinesConcat(a: seq<Document>, b: seq<Document>)
    ensures Lines(a + b) == Lines(a) + Lines(b)
    decreases |b|
  {
    if |b| == 0 {
      assert a + b == a;
    } else {
      var pre := b[..|b| - 1];
      var d := b[|b| - 1];
      assert (a + b)[..|a + b| - 1] == a + pre;
      assert (a + b)[|a + b| - 1] == d;
      LinesConcat(a, pre);
      assert Lines(a + b) == Lines(a + pre) + Line(d);
      assert Lines(b) == Lines(pre) + Line(d);
    }
  }

  /** The reply lists the documents one line each, in order: the line of
      document `i` follows the header and the lines of documents `0..i`. */
  lemma FormatResponseLists(docs: seq<Document>, i: nat)
    requires i < |docs|
    ensures var off := |HEADER| + |Lines(docs[..i])|;
            off + |Line(docs[i])| <= |FormatResponse(docs)|
            && FormatResponse(docs)[off..off + |Line(docs[i])|] == Line(docs[i])
  {
    assert docs == docs[..i] + [docs[i]] + docs[i + 1..];
    LinesConcat(docs[..i] + [docs[i]], docs[i + 1..]);
    LinesConcat(docs[..i], [docs[i]]);
    assert Lines([docs[i]]) == Line(docs[i]) by {
      assert [docs[i]][..0] == [];
    }
    var pre := HEADER + Lines(docs[..i]);
    assert FormatResponse(docs) == pre + Line(docs[i]) + Lines(docs[i + 1..]);
  }

  // ---------------------------------------------------------------------
  // The `(type: X)` convention

  const TYPE_MARKER: string := "(type:"

  datatype ParsedQuery = ParsedQuery(text: string, docType: Option<string>)

  /**
   * `run_agent`'s parsing: when the marker occurs, the search text is what
   * precedes its first occurrence, stripped, and the type is the piece up to
   * the next occurrence with every `)` removed, stripped. Otherwise the query
   * is kept as it is, with no type.
   */
  function ParseTypeFilter(query: string): (r: ParsedQuery)
    ensures !Contains(query, TYPE_MARKER) ==> r == ParsedQuery(query, None)
    ensures Contains(query, TYPE_MARKER) ==> r.text == Strip(query[..Find(query, TYPE_MARKER).value])
    ensures Contains(query, TYPE_MARKER) ==> r.docType.Some? && ')' !in r.docType.value
    ensures Contains(query, TYPE_MARKER) ==> Strip(r.docType.value) == r.docType.value
    ensures Contains(query, TYPE_MARKER) ==>
              var rest := query[Find(query, TYPE_MARKER).value + |TYPE_MARKER|..];
              var piece := if Contains(rest, TYPE_MARKER) then rest[..Find(rest, TYPE_MARKER).value] else rest;
              r.docType == Some(Strip(RemoveAll(piece, ')')))
  {
    if Contains(query, TYPE_MARKER) then
      SplitFirstTwo(query, TYPE_MARKER);
      var parts := Split(query, TYPE_MARKER);
      var t := Strip(RemoveAll(parts[1], ')'));
      StripIdempotent(RemoveAll(parts[1], ')'));
      StripSubset(RemoveAll(parts[1], ')'));
      ParsedQuery(Strip(parts[0]), Some(t))
    else ParsedQuery(query, None)
  }

  /** The query text starts with the marker's first occurrence at `|q| + 1`
      when `q` has no marker of its own. */
  lemma MarkerAfter(q: string, tail: string)
    requires !Contains(q, TYPE_MARKER)
    ensures Find(q + " " + TYPE_MARKER + tail, TYPE_MARKER) == Some(|q| + 1)
  {
    var s := q + " " + TYPE_MARKER + tail;
    assert OccursAt(s, TYPE_MARKER, |q| + 1) by {
      assert s[|q| + 1..|q| + 7] == TYPE_MARKER;
    }
    forall j: nat | j < |q| + 1 ensures !OccursAt(s, TYPE_MARKER, j) {
      if j + 6 <= |q| {
        assert s[j..j + 6] == q[j..j + 6];
        assert !OccursAt(q, TYPE_MARKER, j);
      } else if j + 6 <= |s| {
        assert s[j..j + 6][|q| - j] == ' ';
      }
    }
  }

  /** The piece the front end appends after the marker holds no marker. */
  lemma NoMarkerInTail(t: string)
    requires !Contains(t, TYPE_MARKER)
    ensures !Contains(" " + t + ")", TYPE_MARKER)
  {
    var rest := " " + t + ")";
    forall j: nat | j <= |rest| ensures !OccursAt(rest, TYPE_MARKER, j) {
      if j + 6 <= |rest| {
        if j == 0 {
          assert rest[j..j + 6][0] == ' ';
        } else if j + 6 <= |t| + 1 {
          assert rest[j..j + 6] == t[j - 1..j + 5];
          assert !OccursAt(t, TYPE_MARKER, j - 1);
        } else {
          assert rest[j..j + 6][5] == ')';
        }
      }
    }
  }

  /** Where the parser cuts a query that ends with an appended filter. */
  lemma SplitAppended(q: string, t: string)
    requires !Contains(q, TYPE_MARKER) && !Contains(t, TYPE_MARKER)
    ensures Split(q + " " + TYPE_MARKER + (" " + t + ")"), TYPE_MARKER) == [q + " ", " " + t + ")"]
  {
    var rest := " " + t + ")";
    var s := q + " " + TYPE_MARKER + rest;
    MarkerAfter(q, rest);
    assert s[..|q| + 1] == q + " ";
    assert s[|q| + 1 + |TYPE_MARKER|..] == rest;
    NoMarkerInTail(t);
  }

  /** What the parser makes of the piece after the marker. */
  lemma TypeOfAppended(t: string)
    requires ')' !in t
    ensures Strip(RemoveAll(" " + t + ")", ')')) == Strip(t)
  {
    RemoveAllConcat(" " + t, ")", ')');
    RemoveAllConcat(" ", t, ')');
    assert RemoveAll(")", ')') == "";
    assert RemoveAll(" ", ')') == " ";
    assert " " + t + [] == " " + t + [];
    StripSpaceAround(" ", t, []);
  }

  /** A query with the filter `(type: t)` appended parses into the stripped
      text and the stripped type, provided neither part contains the marker
      and `t` has no `)`. */
  lemma ParseAppended(q: string, t: string)
    requires !Contains(q, TYPE_MARKER) && !Contains(t, TYPE_MARKER) && ')' !in t
    ensures ParseTypeFilter(q + " (type: " + t + ")") == ParsedQuery(Strip(q), Some(Strip(t)))
  {
    var rest := " " + t + ")";
    var s := q + " " + TYPE_MARKER + rest;
    assert q + " (type: " + t + ")" == s;
    SplitAppended(q, t);
    ParseOfTwoParts(s, q + " ", rest);
    StripTrailingSpace(q);
    TypeOfAppended(t);
  }

  lemma StripTrailingSpace(q: string)
    ensures Strip(q + " ") == Strip(q)
  {
    StripSpaceAfter(q, " ");
  }

  /** The parse of a query that the marker cuts into exactly two pieces. */
  lemma ParseOfTwoParts(s: string, a: string, b: string)
    requires Split(s, TYPE_MARKER) == [a, b]
    ensures ParseTypeFilter(s) == ParsedQuery(Strip(a), Some(Strip(RemoveAll(b, ')'))))
  {
    assert Contains(s, TYPE_MARKER);
  }

  /** Round trip with the chat page: parsing the query it builds from a text
      `q` and a selected type `t` other than `All` gives back `q` and `t`,
      stripped. */
  lemma ParseUiQuery(q: string, t: string)
    requires !Contains(q, TYPE_MARKER) && !Contains(t, TYPE_MARKER) && ')' !in t
    requires t != "All"
    ensures ParseTypeFilter(UiQuery(q, t)) == ParsedQuery(Strip(q), Some(Strip(t)))
  {
    ParseAppended(q, t);
  }

  /** When the chat page's selection is `All`, nothing is appended and the
      parser applies no type. */
  lemma ParseUiQueryAll(q: string)
    requires !Contains(q, TYPE_MARKER)
    ensures ParseTypeFilter(UiQuery(q, "All")) == ParsedQuery(q, None)
  {
  }

  /** A query that spells out `(type: All)` gets the literal type `All`. */
  lemma SpelledOutAllIsLiteral()
    ensures ParseTypeFilter("all rules (type: All)") == ParsedQuery("all rules", Some("All"))
  {
    NoMarkerInAllRules();
    AllRulesSpelledOut();
    ParseAppendedStripped("all rules", "All");
  }

  lemma AllRulesSpelledOut()
    ensures "all rules (type: All)" == "all rules" + " (type: " + "All" + ")"
    ensures |"all rules"| > 0 && !IsSpace("all rules"[0]) && !IsSpace("all rules"[8])
    ensures !IsSpace("All"[0]) && !IsSpace("All"[2])
  {
  }

  /** `ParseAppended` for a text and a type that have nothing to strip. */
  lemma ParseAppendedStripped(q: string, t: string)
    requires !Contains(q, TYPE_MARKER) && !Contains(t, TYPE_MARKER) && ')' !in t
    requires |q| > 0 && !IsSpace(q[0]) && !IsSpace(q[|q| - 1])
    requires |t| > 0 && !IsSpace(t[0]) && !IsSpace(t[|t| - 1])
    ensures ParseTypeFilter(q + " (type: " + t + ")") == ParsedQuery(q, Some(t))
  {
    ParseAppended(q, t);
    StripUnchanged(q);
    StripUnchanged(t);
  }

  lemma NoMarkerInAllRules()
    ensures !Contains("all rules", TYPE_MARKER) && !Contains("All", TYPE_MARKER) && ')' !in "All"
  {
    forall j: nat | j + 6 <= 9 ensures !OccursAt("all rules", TYPE_MARKER, j) {
      assert "all rules"[j..j + 6][0] != '(';
    }
  }

  lemma StripUnchanged(s: string)
    requires |s| > 0 && !IsSpace(s[0]) && !IsSpace(s[|s| - 1])
    ensures Strip(s) == s
  {
    StripOfPadded([], s, []);
    assert [] + s + [] == s;
  }

  // ---------------------------------------------------------------------
  // run_agent

  /** The reply `run_agent` gives once the window is known. */
  function Answer(query: string, startDate: string, endDate: string, db: Db, fault: Option<string>,
                  service: string -> ServiceReply): (r: string)
  {
    var p := ParseTypeFilter(query);
    match FetchDocuments(p.text, startDate, endDate, p.docType, db, fault)
    case Error(msg) => msg
    case Rows(docs) => if docs == [] then NO_DOCUMENTS else FormatResponse(SummariseAbstracts(docs, service))
  }

  /**
   * `run_agent` with its 30-day window passed in as `startDate` and
   * `endDate`: a blank query is refused, then the query is parsed, fetched,
   * and the error message, the no-result message or the summarised listing
   * is returned.
   */
  function RunAgent(query: string, startDate: string, endDate: string, db: Db, fault: Option<string>,
                    service: string -> ServiceReply): (r: string)
    ensures AllSpace(query) ==> r == EMPTY_QUERY_REPLY
    ensures !AllSpace(query) && (!IsValidDate(startDate) || !IsValidDate(endDate)) ==> r == INVALID_DATE
    ensures !AllSpace(query) ==>
              var p := ParseTypeFilter(query);
              var f := FetchDocuments(p.text, startDate, endDate, p.docType, db, fault);
              && (f == Rows([]) ==> r == NO_DOCUMENTS)
              && (f.Rows? && f.docs != [] ==> r == FormatResponse(SummariseAbstracts(f.docs, service)))
              && (f.Error? ==> r == f.message)
  {
    StripEmptyIffBlank(query);
    if Strip(query) == [] then EMPTY_QUERY_REPLY
    else Answer(query, startDate, endDate, db, fault, service)
  }

  /** With a well-formed window and a readable table, a non-blank query
      whose search text is non-blank gets a listing of exactly the matching
      rows, or the no-result message when there are none. */
  lemma RunAgentAnswers(query: string, from: Date, to: Date, rows: Table, service: string -> ServiceReply)
    requires IsCalendarDate(from) && IsCalendarDate(to)
    requires !AllSpace(query) && !AllSpace(ParseTypeFilter(query).text)
    ensures var p := ParseTypeFilter(query);
            var matching := Select(rows, p.text, FormatDate(from), FormatDate(to), p.docType);
            var r := RunAgent(query, FormatDate(from), FormatDate(to), Created(rows), None, service);
            && (matching == [] ==> r == NO_DOCUMENTS)
            && (matching != [] ==> r == FormatResponse(SummariseAbstracts(matching, service)))
  {
    ParseFormatted(from);
    ParseFormatted(to);
    var p := ParseTypeFilter(query);
    var f := FetchDocuments(p.text, FormatDate(from), FormatDate(to), p.docType, Created(rows), None);
    assert f == Rows(Select(rows, p.text, FormatDate(from), FormatDate(to), p.docType));
  }

  /** What line 78 of the agent raises: `timedelta` is used but never
      imported. */
  const TIMEDELTA_ERROR: string := "Agent error: name 'timedelta' is not defined"

  /**
   * `run_agent` as written: after the blank check and the parsing, building
   * the window raises `NameError`, which the outer handler turns into its
   * message, so no query ever reaches the database.
   */
  function RunAgentAsWritten(query: string): (r: string)
    ensures AllSpace(query) <==> r == EMPTY_QUERY_REPLY
    ensures !AllSpace(query) <==> r == TIMEDELTA_ERROR
  {
    StripEmptyIffBlank(query);
    if Strip(query) == [] then EMPTY_QUERY_REPLY
    else TIMEDELTA_ERROR
  }

  /** An input that shows the difference: on an empty table, the query
      `order` over May 2024 should say that nothing was found, but the code as
      written answers with the `NameError` message. */
  lemma TimedeltaFinding(service: string -> ServiceReply)
    ensures RunAgentAsWritten("order") == TIMEDELTA_ERROR
    ensures RunAgent("order", "2024-05-01", "2024-05-31", Created([]), None, service) == NO_DOCUMENTS
  {
    assert !IsSpace("order"[0]);
    MayWindow();
    assert !Contains("order", TYPE_MARKER);
  }

  lemma MayWindow()
    ensures IsValidDate("2024-05-01") && IsValidDate("2024-05-31")
  {
    ParseFormatted(Date(2024, 5, 1));
    ParseFormatted(Date(2024, 5, 31));
    assert FormatDate(Date(2024, 5, 1)) == "2024-05-01";
    assert FormatDate(Date(2024, 5, 31)) == "2024-05-31";
  }
}

=== FILE: api.dfy ===
/**
 * The query handling of the `/chat` endpoint: the `(type:` filter, the
 * `executive order` keyword heuristic, and the mapping of an exception from
 * the response generator to a reply. The generator is a parameter.
 */
module Api {
  import opened Wrappers
  import opened Text
  import opened Agent
  import opened Ui

  const EXECUTIVE_ORDER_KEYWORD: string := "executive order"
  const EXECUTIVE_ORDER: string := "Executive Order"
  /** The message of the `IndexError` that `parts[1]` raises. */
  const INDEX_ERROR: string := "list index out of range"
  const AGENT_ERROR_PREFIX: string := "Agent error: "

  /** What one call of `generate_response(query_text, doc_type)` does. */
  datatype Generated = Generated(text: string) | Raised(message: string)

  /** The endpoint's outcome: the body `{'response': ...}`, or an exception
      that escapes the handler. */
  datatype ChatReply = Reply(response: string) | Crashed(error: string)

  /** The marker and the keyword are lower-case, so an occurrence in the
      query is also one in its lower-cased form. */
  lemma LowerKeepsOccurrence(q: string, pat: string, i: nat)
    requires Lower(pat) == pat && OccursAt(q, pat, i)
    ensures OccursAt(Lower(q), pat, i)
  {
    assert Lower(q)[i..i + |pat|] == Lower(pat) by {
      forall k | 0 <= k < |pat| ensures Lower(q)[i..i + |pat|][k] == Lower(pat)[k] {
        assert q[i..i + |pat|][k] == q[i + k];
      }
    }
  }

  lemma LowerKeepsMarker(q: string)
    ensures Contains(q, TYPE_MARKER) ==> Contains(Lower(q), TYPE_MARKER)
  {
    assert Lower(TYPE_MARKER) == TYPE_MARKER;
    if Contains(q, TYPE_MARKER) {
      var i: nat :| i <= |q| && OccursAt(q, TYPE_MARKER, i);
      LowerKeepsOccurrence(q, TYPE_MARKER, i);
    }
  }

  /**
   * The parsing in `chat` as written: the marker is looked for in the
   * lower-cased query but the split is made on the query itself, so a
   * marker written in other cases leaves a single piece and `parts[1]`
   * raises outside the `try` (the `None` result). An exact marker wins over
   * the keyword; the keyword alone sets the type and keeps the text.
   */
  function ChatQueryAsWritten(q: string): (r: Option<ParsedQuery>)
    ensures r.None? <==> Contains(Lower(q), TYPE_MARKER) && !Contains(q, TYPE_MARKER)
    ensures Contains(q, TYPE_MARKER) ==> r == Some(ParseTypeFilter(q))
    ensures !Contains(Lower(q), TYPE_MARKER) && Contains(Lower(q), EXECUTIVE_ORDER_KEYWORD) ==>
              r == Some(ParsedQuery(q, Some(EXECUTIVE_ORDER)))
    ensures !Contains(Lower(q), TYPE_MARKER) && !Contains(Lower(q), EXECUTIVE_ORDER_KEYWORD) ==>
              r == Some(ParsedQuery(q, None))
  {
    LowerKeepsMarker(q);
    if Contains(Lower(q), TYPE_MARKER) then
      var parts := Split(q, TYPE_MARKER);
      if |parts| < 2 then None
      else Some(ParsedQuery(Strip(parts[0]), Some(Strip(RemoveAll(parts[1], ')')))))
    else if Contains(Lower(q), EXECUTIVE_ORDER_KEYWORD) then Some(ParsedQuery(q, Some(EXECUTIVE_ORDER)))
    else Some(ParsedQuery(q, None))
  }

  /**
   * The parsing with detection and split agreeing: the marker is detected
   * exactly as `run_agent` detects it, and the keyword heuristic applies
   * only when there is no marker.
   */
  function ChatQuery(q: string): (r: ParsedQuery)
    ensures Contains(q, TYPE_MARKER) ==> r == ParseTypeFilter(q)
    ensures !Contains(q, TYPE_MARKER) && Contains(Lower(q), EXECUTIVE_ORDER_KEYWORD) ==>
              r == ParsedQuery(q, Some(EXECUTIVE_ORDER))
    ensures !Contains(q, TYPE_MARKER) && !Contains(Lower(q), EXECUTIVE_ORDER_KEYWORD) ==>
              r == ParsedQuery(q, None)
    ensures r.docType.None? ==> r.text == q
    ensures r.text != q ==> Contains(q, TYPE_MARKER)
    ensures r.docType.Some? <==> Contains(q, TYPE_MARKER) || Contains(Lower(q), EXECUTIVE_ORDER_KEYWORD)
  {
    if Contains(q, TYPE_MARKER) then ParseTypeFilter(q)
    else if Contains(Lower(q), EXECUTIVE_ORDER_KEYWORD) then ParsedQuery(q, Some(EXECUTIVE_ORDER))
    else ParsedQuery(q, None)
  }

  /** The corrected parsing changes nothing where the original does not
      crash. */
  lemma ChatQueryAgrees(q: string)
    requires ChatQueryAsWritten(q).Some?
    ensures ChatQueryAsWritten(q).value == ChatQuery(q)
  {
    LowerKeepsMarker(q);
  }

  /** The `try` block: the generator's text, or its exception as a reply. */
  function Respond(p: ParsedQuery, generate: (string, Option<string>) -> Generated): (r: string)
    ensures generate(p.text, p.docType).Generated? ==> r == generate(p.text, p.docType).text
    ensures generate(p.text, p.docType).Raised? ==> r == AGENT_ERROR_PREFIX + generate(p.text, p.docType).message
    ensures (generate(p.text, p.docType).Generated? && r == generate(p.text, p.docType).text) ||
            (|AGENT_ERROR_PREFIX| <= |r| && r[..|AGENT_ERROR_PREFIX|] == AGENT_ERROR_PREFIX)
  {
    match generate(p.text, p.docType)
    case Generated(t) => t
    case Raised(m) => AGENT_ERROR_PREFIX + m
  }

  /** `chat` as written. Only the parsing can make it crash: an exception
      of the generator becomes a reply. */
  function ChatAsWritten(q: string, generate: (string, Option<string>) -> Generated): (r: ChatReply)
    ensures r.Crashed? <==> Contains(Lower(q), TYPE_MARKER) && !Contains(q, TYPE_MARKER)
    ensures r.Crashed? ==> r.error == INDEX_ERROR
    ensures r.Reply? ==> r.response == Respond(ChatQueryAsWritten(q).value, generate)
  {
    match ChatQueryAsWritten(q)
    case None => Crashed(INDEX_ERROR)
    case Some(p) => Reply(Respond(p, generate))
  }

  /** `chat` with the corrected parsing: it always replies. */
  function Chat(q: string, generate: (string, Option<string>) -> Generated): (r: string)
    ensures r == Respond(ChatQuery(q), generate)
    ensures ChatAsWritten(q, generate).Reply? ==> r == ChatAsWritten(q, generate).response
  {
    assert ChatQueryAsWritten(q).Some? ==> ChatQueryAsWritten(q).value == ChatQuery(q) by {
      if ChatQueryAsWritten(q).Some? { ChatQueryAgrees(q); }
    }
    Respond(ChatQuery(q), generate)
  }

  /** An input that shows the crash: an upper-case marker. */
  lemma UpperCaseMarkerCrashes(generate: (string, Option<string>) -> Generated)
    ensures ChatAsWritten("(TYPE: Rule)", generate) == Crashed(INDEX_ERROR)
    ensures Chat("(TYPE: Rule)", generate) == Respond(ParsedQuery("(TYPE: Rule)", None), generate)
  {
    UpperCaseMarkerLowered();
    UpperCaseMarkerInexact();
    UpperCaseMarkerNoKeyword();
  }

  lemma UpperCaseMarkerLowered()
    ensures Contains(Lower("(TYPE: Rule)"), TYPE_MARKER)
  {
    var q := "(TYPE: Rule)";
    assert OccursAt(Lower(q), TYPE_MARKER, 0) by {
      assert Lower(q)[0..6] == TYPE_MARKER;
    }
  }

  lemma UpperCaseMarkerInexact()
    ensures !Contains("(TYPE: Rule)", TYPE_MARKER)
  {
    var q := "(TYPE: Rule)";
    forall j: nat | j + 6 <= |q| ensures !OccursAt(q, TYPE_MARKER, j) {
      if j == 0 {
        assert q[0..6][1] == 'T';
      } else {
        assert q[j..j + 6][0] == q[j];
      }
    }
  }

  lemma UpperCaseMarkerNoKeyword()
    ensures !Contains(Lower("(TYPE: Rule)"), EXECUTIVE_ORDER_KEYWORD)
  {
    var l := Lower("(TYPE: Rule)");
    forall j: nat | j <= |l| ensures !OccursAt(l, EXECUTIVE_ORDER_KEYWORD, j) {
      assert j + 15 > |l|;
    }
  }

  /** The chat page's suffix carries an exact marker. */
  lemma AppendedHasMarker(q: string, t: string)
    requires !Contains(q, TYPE_MARKER)
    ensures Contains(q + " (type: " + t + ")", TYPE_MARKER)
  {
    var s := q + " (type: " + t + ")";
    assert s == q + " " + TYPE_MARKER + (" " + t + ")");
    MarkerAfter(q, " " + t + ")");
    assert OccursAt(s, TYPE_MARKER, |q| + 1);
  }

  /** Round trip with the chat page: a selected type other than `All`
      reaches the generator, stripped, together with the stripped text. */
  lemma ChatUiQuery(q: string, t: string)
    requires !Contains(q, TYPE_MARKER) && !Contains(t, TYPE_MARKER) && ')' !in t
    requires t != "All"
    ensures ChatQueryAsWritten(UiQuery(q, t)) == Some(ParsedQuery(Strip(q), Some(Strip(t))))
    ensures ChatQuery(UiQuery(q, t)) == ParsedQuery(Strip(q), Some(Strip(t)))
  {
    ParseUiQuery(q, t);
    AppendedHasMarker(q, t);
  }

  /** An explicit marker takes priority over the keyword: a query that
      mentions executive orders but has `Rule` selected on the chat page asks
      for rules,
      while without it the keyword sets the type and keeps the text. */
  lemma MarkerBeatsKeyword(q: string)
    requires !Contains(q, TYPE_MARKER)
    requires Contains(Lower(q), EXECUTIVE_ORDER_KEYWORD)
    ensures ChatQuery(UiQuery(q, "Rule")).docType == Some("Rule")
    ensures ChatQuery(q) == ParsedQuery(q, Some(EXECUTIVE_ORDER))
  {
    SelectedRule(q);
  }

  lemma SelectedRule(q: string)
    requires !Contains(q, TYPE_MARKER)
    ensures ChatQuery(UiQuery(q, "Rule")) == ParsedQuery(Strip(q), Some("Rule"))
  {
    var t := "Rule";
    RuleIsPlainType();
    ChatUiQuery(q, t);
  }

  lemma RuleIsPlainType()
    ensures !Contains("Rule", TYPE_MARKER) && ')' !in "Rule" && Strip("Rule") == "Rule"
    ensures "Rule" != "All"
  {
    StripUnchanged("Rule");
    assert "Rule"[0] != "All"[0];
  }
}

=== FILE: dates.dfy ===
/**
 * Date validation as done by `datetime.strptime(s, "%Y-%m-%d")` (agent.py),
 * restricted to ASCII digits, and the ISO `YYYY-MM-DD` rendering produced by
 * `strftime("%Y-%m-%d")`. Stored publication dates are compared as text, so
 * the module also defines the text order SQLite uses.
 */
module Dates {
  import opened Wrappers

  datatype Date = Date(year: int, month: int, day: int)

  predicate IsLeapYear(y: int) {
    (y % 4 == 0 && y % 100 != 0) || y % 400 == 0
  }

  function DaysInMonth(y: int, m: int): int
    requires 1 <= m <= 12
  {
    if m == 2 then (if IsLeapYear(y) then 29 else 28)
    else if m == 4 || m == 6 || m == 9 || m == 11 then 30
    else 31
  }

  /** The dates `datetime.date` accepts. */
  predicate IsCalendarDate(d: Date) {
    1 <= d.year <= 9999 && 1 <= d.month <= 12 && 1 <= d.day <= DaysInMonth(d.year, d.month)
  }

  predicate IsDigit(c: char) {
    '0' <= c <= '9'
  }

  predicate AllDigits(s: string) {
    forall i :: 0 <= i < |s| ==> IsDigit(s[i])
  }

  function DigitValue(c: char): nat
    requires IsDigit(c)
  {
    c as int - '0' as int
  }

  function DigitChar(n: nat): (c: char)
    requires n < 10
    ensures IsDigit(c) && DigitValue(c) == n
  {
    ('0' as int + n) as char
  }

  /** The decimal value of a string of digits. */
  function Number(s: string): nat
    requires AllDigits(s)
  {
    if |s| == 0 then 0 else 10 * Number(s[..|s| - 1]) + DigitValue(s[|s| - 1])
  }

  /** strptime's `%m` pattern: `1[0-2]|0[1-9]|[1-9]`. */
  predicate IsMonthField(m: string) {
    || (|m| == 2 && m[0] == '1' && '0' <= m[1] <= '2')
    || (|m| == 2 && m[0] == '0' && '1' <= m[1] <= '9')
    || (|m| == 1 && '1' <= m[0] <= '9')
  }

  /** strptime's `%d` pattern: `3[01]|[12]\d|0[1-9]|[1-9]| [1-9]`. */
  predicate IsDayField(d: string) {
    || (|d| == 2 && d[0] == '3' && '0' <= d[1] <= '1')
    || (|d| == 2 && '1' <= d[0] <= '2' && IsDigit(d[1]))
    || (|d| == 2 && d[0] == '0' && '1' <= d[1] <= '9')
    || (|d| == 2 && d[0] == ' ' && '1' <= d[1] <= '9')
    || (|d| == 1 && '1' <= d[0] <= '9')
  }

  /** The value of a month or day field; a leading space counts as nothing. */
  function FieldValue(f: string): nat
    requires IsMonthField(f) || IsDayField(f)
  {
    if f[0] == ' ' then DigitValue(f[1]) else Number(f)
  }

  /**
   * `strptime(s, "%Y-%m-%d")`: four digits, `-`, a month field, `-`, a day
   * field, nothing after it, and a date the calendar has. Since the fields
   * hold no `-`, the second hyphen fixes where the month ends, so the
   * regular expression's backtracking has a single outcome.
   */
  function ParseDate(s: string): (r: Option<Date>)
    ensures r.Some? ==> IsCalendarDate(r.value)
  {
    if |s| < 8 || !AllDigits(s[..4]) || s[4] != '-' then None
    else
      var k := if s[6] == '-' then 6 else 7;
      if s[k] != '-' then None
      else
        var m := s[5..k];
        var d := s[k + 1..];
        if !IsMonthField(m) || !IsDayField(d) then None
        else
          var date := Date(Number(s[..4]), FieldValue(m), FieldValue(d));
          if IsCalendarDate(date) then Some(date) else None
  }

  lemma NumberOfTwo(s: string)
    requires |s| == 2 && AllDigits(s)
    ensures Number(s) == 10 * DigitValue(s[0]) + DigitValue(s[1])
  {
    var head := s[..1];
    assert head[..0] == [] && head[0] == s[0];
    assert Number(head) == DigitValue(s[0]);
  }

  lemma NumberOfFour(s: string)
    requires |s| == 4 && AllDigits(s)
    ensures Number(s) == 1000 * DigitValue(s[0]) + 100 * DigitValue(s[1]) + 10 * DigitValue(s[2]) + DigitValue(s[3])
  {
    assert s[..3][..2] == s[..2];
    NumberOfTwo(s[..2]);
  }

  /** How the format treats some inputs: leap days follow the calendar,
      month and day need not be zero-padded, and nothing may follow the day. */
  lemma ParseDateCases()
    ensures ParseDate("2024-02-29") == Some(Date(2024, 2, 29))
    ensures ParseDate("2023-02-29") == None
    ensures ParseDate("2024-5-1") == Some(Date(2024, 5, 1))
    ensures ParseDate("2024-05-01 ") == None
    ensures ParseDate("2024/05/01") == None
    ensures ParseDate("2024-13-01") == None
  {
    LeapDayCases();
    UnpaddedCase();
    RejectedCases();
  }

  lemma LeapDayCases()
    ensures ParseDate("2024-02-29") == Some(Date(2024, 2, 29))
    ensures ParseDate("2023-02-29") == None
  {
    NumberOfFour("2024");
    NumberOfFour("2023");
    NumberOfTwo("02");
    NumberOfTwo("29");
    assert "2024-02-29"[..4] == "2024" && "2024-02-29"[5..7] == "02" && "2024-02-29"[8..] == "29";
    assert "2023-02-29"[..4] == "2023" && "2023-02-29"[5..7] == "02" && "2023-02-29"[8..] == "29";
  }

  lemma UnpaddedCase()
    ensures ParseDate("2024-5-1") == Some(Date(2024, 5, 1))
  {
    NumberOfFour("2024");
    assert "2024-5-1"[..4] == "2024" && "2024-5-1"[5..6] == "5" && "2024-5-1"[7..] == "1";
    assert "5"[..0] == [] && "1"[..0] == [];
    assert FieldValue("5") == 5 && FieldValue("1") == 1;
  }

  lemma RejectedCases()
    ensures ParseDate("2024-05-01 ") == None
    ensures ParseDate("2024/05/01") == None
    ensures ParseDate("2024-13-01") == None
  {
    assert "2024-05-01 "[8..] == "01 ";
    assert "2024-13-01"[5..7] == "13";
  }

  /** The date check `fetch_documents_from_db` performs on both bounds. */
  predicate IsValidDate(s: string) {
    ParseDate(s).Some?
  }

  function Pad2(n: nat): (s: string)
    requires n < 100
    ensures |s| == 2 && AllDigits(s)
  {
    [DigitChar(n / 10), DigitChar(n % 10)]
  }

  function Pad4(n: nat): (s: string)
    requires n < 10000
    ensures |s| == 4 && AllDigits(s)
  {
    [DigitChar(n / 1000), DigitChar(n / 100 % 10), DigitChar(n / 10 % 10), DigitChar(n % 10)]
  }

  /** `strftime("%Y-%m-%d")` for a four-digit year. */
  function FormatDate(d: Date): (s: string)
    requires IsCalendarDate(d)
    ensures |s| == 10
  {
    Pad4(d.year) + "-" + Pad2(d.month) + "-" + Pad2(d.day)
  }

  lemma Pad2Value(n: nat)
    requires n < 100
    ensures Number(Pad2(n)) == n
  {
    var s := Pad2(n);
    assert s[..1][..0] == [];
    assert Number(s[..1]) == n / 10;
  }

  lemma Pad4Value(n: nat)
    requires n < 10000
    ensures Number(Pad4(n)) == n
  {
    var s := Pad4(n);
    assert s[..1][..0] == [];
    assert s[..2][..1] == s[..1];
    assert s[..3][..2] == s[..2];
    assert s[..4][..3] == s[..3];
    assert Number(s[..1]) == n / 1000;
    assert Number(s[..2]) == n / 100;
    assert Number(s[..3]) == n / 10;
    assert s[..4] == s;
  }

  /** Every date `strftime` renders is accepted by `strptime` and parses
      back to the same date. */
  lemma ParseFormatted(d: Date)
    requires IsCalendarDate(d)
    ensures ParseDate(FormatDate(d)) == Some(d)
  {
    var s := FormatDate(d);
    assert s[..4] == Pad4(d.year);
    assert s[4] == '-' && s[7] == '-' && s[6] != '-';
    assert s[5..7] == Pad2(d.month);
    assert s[8..] == Pad2(d.day);
    Pad4Value(d.year);
    Pad2Value(d.month);
    Pad2Value(d.day);
  }

  // ---------------------------------------------------------------------
  // Text order

  /** SQLite's BINARY collation on text: code-point-wise lexicographic
      order, a proper prefix sorting first. */
  predicate TextLe(a: string, b: string) {
    |a| == 0 || (|b| > 0 && (a[0] < b[0] || (a[0] == b[0] && TextLe(a[1..], b[1..]))))
  }

  lemma {:induction false} TextLeReflexive(a: string)
    ensures TextLe(a, a)
  {
    if |a| > 0 { TextLeReflexive(a[1..]); }
  }

  lemma {:induction false} TextLeTransitive(a: string, b: string, c: string)
    requires TextLe(a, b) && TextLe(b, c)
    ensures TextLe(a, c)
  {
    if |a| > 0 && a[0] == b[0] && b[0] == c[0] {
      TextLeTransitive(a[1..], b[1..], c[1..]);
    }
  }

  lemma {:induction false} TextLeTotal(a: string, b: string)
    ensures TextLe(a, b) || TextLe(b, a)
  {
    if |a| > 0 && |b| > 0 && a[0] == b[0] {
      TextLeTotal(a[1..], b[1..]);
    }
  }

  lemma {:induction false} TextLeAntisymmetric(a: string, b: string)
    requires TextLe(a, b) && TextLe(b, a)
    ensures a == b
  {
    if |a| > 0 && |b| > 0 {
      TextLeAntisymmetric(a[1..], b[1..]);
      assert a == [a[0]] + a[1..] && b == [b[0]] + b[1..];
    }
  }

  /** Comparing two texts whose first parts have the same length: the first
      parts decide unless they are equal. */
  lemma {:induction false} TextLeConcat(a: string, b: string, x: string, y: string)
    requires |a| == |b|
    ensures TextLe(a + x, b + y) <==> (TextLe(a, b) && a != b) || (a == b && TextLe(x, y))
  {
    if |a| == 0 {
      assert a + x == x && b + y == y && a == b;
    } else {
      assert (a + x)[0] == a[0] && (b + y)[0] == b[0];
      assert (a + x)[1..] == a[1..] + x && (b + y)[1..] == b[1..] + y;
      assert a == [a[0]] + a[1..] && b == [b[0]] + b[1..];
      TextLeConcat(a[1..], b[1..], x, y);
    }
  }

  lemma DecimalStep(p: int, q: int, c: int, d: int)
    requires 0 <= c < 10 && 0 <= d < 10
    ensures 10 * p + c <= 10 * q + d <==> p < q || (p == q && c <= d)
    ensures 10 * p + c == 10 * q + d <==> p == q && c == d
  {
  }

  /** Digit strings of one length sort as text exactly as their values do. */
  lemma {:induction false} DigitsOrder(a: string, b: string)
    requires |a| == |b| && AllDigits(a) && AllDigits(b)
    ensures TextLe(a, b) <==> Number(a) <= Number(b)
    ensures a == b <==> Number(a) == Number(b)
    decreases |a|
  {
    if |a| > 0 {
      var a', b' := a[..|a| - 1], b[..|b| - 1];
      var c, d := a[|a| - 1], b[|b| - 1];
      DigitsOrder(a', b');
      assert a == a' + [c] && b == b' + [d];
      TextLeConcat(a', b', [c], [d]);
      assert TextLe([c], [d]) <==> c <= d by {
        assert [c][1..] == [] && [d][1..] == [];
      }
      assert a == b <==> a' == b' && c == d by {
        if a == b { assert a' == b' && c == d; }
      }
      DecimalStep(Number(a'), Number(b'), DigitValue(c), DigitValue(d));
    }
  }

  /** Calendar order. */
  predicate DateLe(a: Date, b: Date) {
    || a.year < b.year
    || (a.year == b.year && a.month < b.month)
    || (a.year == b.year && a.month == b.month && a.day <= b.day)
  }

  lemma PaddedFieldOrder(x: string, y: string, u: string, v: string, m: nat, n: nat, width: nat)
    requires |x| == |y| == width && AllDigits(x) && AllDigits(y)
    requires Number(x) == m && Number(y) == n
    ensures TextLe(x + u, y + v) <==> m < n || (m == n && TextLe(u, v))
  {
    TextLeConcat(x, y, u, v);
    DigitsOrder(x, y);
  }

  lemma DashOrder(u: string, v: string)
    ensures TextLe("-" + u, "-" + v) <==> TextLe(u, v)
  {
    TextLeConcat("-", "-", u, v);
  }

  /**
   * Formatted dates sort as text exactly as they sort on the calendar, so
   * `publication_date BETWEEN ? AND ?` on `YYYY-MM-DD` text selects a
   * calendar interval.
   */
  lemma FormatDateOrder(a: Date, b: Date)
    requires IsCalendarDate(a) && IsCalendarDate(b)
    ensures TextLe(FormatDate(a), FormatDate(b)) <==> DateLe(a, b)
  {
    var da, db := Pad2(a.day), Pad2(b.day);
    Pad2Value(a.day);
    Pad2Value(b.day);
    var tailA, tailB := "-" + da, "-" + db;
    DashOrder(da, db);
    PaddedFieldOrder(da, db, [], [], a.day, b.day, 2);
    assert da + [] == da && db + [] == db;
    assert TextLe([], []);
    assert TextLe(tailA, tailB) <==> a.day <= b.day;

    var ma, mb := Pad2(a.month), Pad2(b.month);
    Pad2Value(a.month);
    Pad2Value(b.month);
    PaddedFieldOrder(ma, mb, tailA, tailB, a.month, b.month, 2);
    var restA, restB := ma + tailA, mb + tailB;
    assert TextLe(restA, restB) <==> a.month < b.month || (a.month == b.month && a.day <= b.day);

    DashOrder(restA, restB);
    var ya, yb := Pad4(a.year), Pad4(b.year);
    Pad4Value(a.year);
    Pad4Value(b.year);
    PaddedFieldOrder(ya, yb, "-" + restA, "-" + restB, a.year, b.year, 4);
    assert FormatDate(a) == ya + ("-" + restA);
    assert FormatDate(b) == yb + ("-" + restB);
  }
}

=== FILE: documents.dfy ===
/**
 * The document record, the ingest normalisation of raw feed records
 * (`process_data`), and the fixed dataset the download step returns.
 */
module Documents {

  /** One regulatory document; `documentNumber` is the table's primary key. */
  datatype Document = Document(
    documentNumber: string,
    title: string,
    publicationDate: string,
    docType: string,
    abstractText: string)

  /** A raw feed record: a JSON object whose values are strings. */
  type RawRecord = map<string, string>

  /** Python's `record.get(key, default)`. */
  function Get(raw: RawRecord, key: string, default: string): string {
    if key in raw then raw[key] else default
  }

  /** The keys a normalised record carries, in the order it writes them. */
  const FIELD_NAMES: seq<string> := ["document_number", "title", "publication_date", "type", "abstract"]

  /**
   * One record of `process_data`: the four plain fields default to the empty
   * string, and the abstract is the `abstract` value when it is non-empty,
   * otherwise the `summary` value, otherwise empty (Python's `a or b`).
   */
  function Normalise(raw: RawRecord): (d: Document)
    ensures "document_number" in raw ==> d.documentNumber == raw["document_number"]
    ensures "document_number" !in raw ==> d.documentNumber == ""
    ensures "title" in raw ==> d.title == raw["title"]
    ensures "title" !in raw ==> d.title == ""
    ensures "publication_date" in raw ==> d.publicationDate == raw["publication_date"]
    ensures "publication_date" !in raw ==> d.publicationDate == ""
    ensures "type" in raw ==> d.docType == raw["type"]
    ensures "type" !in raw ==> d.docType == ""
    ensures "abstract" in raw && raw["abstract"] != "" ==> d.abstractText == raw["abstract"]
    ensures ("abstract" !in raw || raw["abstract"] == "") && "summary" in raw ==> d.abstractText == raw["summary"]
    ensures ("abstract" !in raw || raw["abstract"] == "") && "summary" !in raw ==> d.abstractText == ""
  {
    var a := Get(raw, "abstract", "");
    Document(
      Get(raw, "document_number", ""),
      Get(raw, "title", ""),
      Get(raw, "publication_date", ""),
      Get(raw, "type", ""),
      if a != "" then a else Get(raw, "summary", ""))
  }

  /** The JSON object a normalised document is written as (the processed
      snapshot file). */
  function ToRaw(d: Document): (raw: RawRecord)
    ensures raw.Keys == set f | f in FIELD_NAMES
  {
    map["document_number" := d.documentNumber, "title" := d.title,
        "publication_date" := d.publicationDate, "type" := d.docType,
        "abstract" := d.abstractText]
  }

  /** Normalising a document's own JSON form gives the document back. */
  lemma NormaliseToRaw(d: Document)
    ensures Normalise(ToRaw(d)) == d
  {
  }

  /** Normalisation reads only its six keys: any other field is dropped. */
  lemma NormaliseIgnoresOtherFields(raw: RawRecord, key: string, value: string)
    requires key !in FIELD_NAMES && key != "summary"
    ensures Normalise(raw[key := value]) == Normalise(raw)
  {
  }

  /** `process_data`: one normalised document per raw record, in order. */
  function ProcessData(raws: seq<RawRecord>): (docs: seq<Document>)
    ensures |docs| == |raws|
    ensures forall i :: 0 <= i < |raws| ==> docs[i] == Normalise(raws[i])
  {
    if |raws| == 0 then []
    else ProcessData(raws[..|raws| - 1]) + [Normalise(raws[|raws| - 1])]
  }

  /** Normalising is record-by-record, so batches can be split anywhere. */
  lemma ProcessDataConcat(a: seq<RawRecord>, b: seq<RawRecord>)
    ensures ProcessData(a + b) == ProcessData(a) + ProcessData(b)
  {
  }

  /** The two records of the built-in dataset. */
  const MOCK_DATA: seq<RawRecord> := [
    map[
      "document_number" := "2024-12345",
      "title" := "Executive Order on Environmental Policy",
      "publication_date" := "2024-05-01",
      "type" := "Executive Order",
      "abstract" := "This Executive Order directs federal agencies to prioritize environmental regulations and sustainability initiatives to address climate change. It mandates the adoption of green energy solutions across government operations, establishes new reporting requirements for carbon emissions, and promotes inter-agency collaboration to achieve net-zero emissions by 2050."
    ],
    map[
      "document_number" := "2024-12346",
      "title" := "Executive Order on Workforce Development",
      "publication_date" := "2024-05-15",
      "type" := "Executive Order",
      "abstract" := "This Executive Order establishes comprehensive training programs for federal employees to enhance skills in technology and management. It aims to improve government efficiency and service delivery by investing in workforce development, creating new career pathways, and fostering partnerships with educational institutions to support continuous learning."
    ]
  ]

  /** `download_data`: whatever the window, the fixed two-record dataset,
      whose records normalise to two documents with distinct keys. */
  function DownloadData(startDate: string, endDate: string): (raws: seq<RawRecord>)
    ensures |raws| == 2
    ensures Normalise(raws[0]).documentNumber == "2024-12345"
    ensures Normalise(raws[1]).documentNumber == "2024-12346"
  {
    MOCK_DATA
  }
}

=== FILE: like.dfy ===
/**
 * SQLite's `LIKE` operator with its default settings: `%` matches any run of
 * characters, `_` matches exactly one, there is no escape character, and
 * letters compare equal ignoring ASCII case only. The query engine builds the
 * pattern `%` + query + `%`; for a query free of wildcards that is a
 * case-insensitive substring test, which `LikeSurroundedIsSubstring` proves.
 */
module SqlLike {
  import opened Text

  /** ASCII case-insensitive equality of two characters. */
  predicate FoldEq(a: char, b: char) {
    LowerChar(a) == LowerChar(b)
  }

  predicate IsWildcard(c: char) {
    c == '%' || c == '_'
  }

  predicate NoWildcards(q: string) {
    forall i :: 0 <= i < |q| ==> !IsWildcard(q[i])
  }

  /** `t LIKE p`. */
  predicate Like(p: string, t: string)
    decreases |p| + |t|
  {
    if |p| == 0 then |t| == 0
    else if p[0] == '%' then Like(p[1..], t) || (|t| > 0 && Like(p, t[1..]))
    else |t| > 0 && (p[0] == '_' || FoldEq(p[0], t[0])) && Like(p[1..], t[1..])
  }

  /** The pattern the query engine binds for a search text `q`. */
  function Surround(q: string): (p: string)
    ensures |p| == |q| + 2 && p[0] == '%' && p[|p| - 1] == '%'
    ensures p[1..|p| - 1] == q
  {
    "%" + q + "%"
  }

  /** `t` starts with `q`, ignoring ASCII case. */
  predicate FoldPrefix(q: string, t: string) {
    |q| <= |t| && forall j :: 0 <= j < |q| ==> FoldEq(q[j], t[j])
  }

  /** Case-insensitive substring test: `q.lower() in t.lower()`. */
  predicate ContainsIgnoringCase(t: string, q: string) {
    Contains(Lower(t), Lower(q))
  }

  lemma {:induction false} PercentMatchesAll(t: string)
    ensures Like("%", t)
    decreases |t|
  {
    if |t| > 0 {
      PercentMatchesAll(t[1..]);
    }
  }

  /** A wildcard-free `q` followed by `%` matches exactly the texts that
      start with `q` up to case. */
  lemma {:induction false} LikePrefix(q: string, t: string)
    requires NoWildcards(q)
    ensures Like(q + "%", t) <==> FoldPrefix(q, t)
    decreases |q|
  {
    if |q| == 0 {
      assert q + "%" == "%";
      PercentMatchesAll(t);
    } else {
      var p := q + "%";
      assert p[0] == q[0] && p[1..] == q[1..] + "%";
      if |t| > 0 {
        LikePrefix(q[1..], t[1..]);
        if FoldPrefix(q, t) {
          assert FoldPrefix(q[1..], t[1..]) by {
            forall j | 0 <= j < |q[1..]| ensures FoldEq(q[1..][j], t[1..][j]) {
              assert q[1..][j] == q[j + 1] && t[1..][j] == t[j + 1];
            }
          }
        }
        if FoldEq(q[0], t[0]) && FoldPrefix(q[1..], t[1..]) {
          forall j | 0 <= j < |q| ensures FoldEq(q[j], t[j]) {
            if j > 0 { assert q[1..][j - 1] == q[j] && t[1..][j - 1] == t[j]; }
          }
        }
      }
    }
  }

  /** A leading `%` lets the rest of the pattern match any suffix. */
  lemma {:induction false} LikeLeadingPercent(r: string, t: string)
    ensures Like("%" + r, t) <==> exists k :: 0 <= k <= |t| && Like(r, t[k..])
    decreases |t|
  {
    var p := "%" + r;
    assert p[0] == '%' && p[1..] == r;
    assert t[0..] == t;
    if |t| > 0 {
      LikeLeadingPercent(r, t[1..]);
      if exists k :: 0 <= k <= |t| && Like(r, t[k..]) {
        var k :| 0 <= k <= |t| && Like(r, t[k..]);
        if k > 0 {
          assert t[1..][k - 1..] == t[k..];
        }
      }
      if exists k :: 0 <= k <= |t[1..]| && Like(r, t[1..][k..]) {
        var k :| 0 <= k <= |t[1..]| && Like(r, t[1..][k..]);
        assert t[1..][k..] == t[k + 1..];
      }
    }
  }

  lemma FoldPrefixIsOccurrence(q: string, t: string, k: nat)
    requires k <= |t|
    ensures FoldPrefix(q, t[k..]) <==> OccursAt(Lower(t), Lower(q), k)
  {
    var lt, lq := Lower(t), Lower(q);
    if FoldPrefix(q, t[k..]) {
      assert lt[k..k + |q|] == lq by {
        forall j | 0 <= j < |q| ensures lt[k..k + |q|][j] == lq[j] {
          assert t[k..][j] == t[k + j];
        }
      }
    }
    if OccursAt(lt, lq, k) {
      forall j | 0 <= j < |q| ensures FoldEq(q[j], t[k..][j]) {
        assert lt[k..k + |q|][j] == lt[k + j];
        assert t[k..][j] == t[k + j];
      }
    }
  }

  /** For a query without wildcards, `LIKE '%' || q || '%'` is exactly a
      case-insensitive (ASCII) substring test. */
  lemma LikeSurroundedIsSubstring(q: string, t: string)
    requires NoWildcards(q)
    ensures Like(Surround(q), t) <==> ContainsIgnoringCase(t, q)
  {
    assert Surround(q) == "%" + (q + "%");
    LikeLeadingPercent(q + "%", t);
    var lt, lq := Lower(t), Lower(q);
    if Like(Surround(q), t) {
      var k :| 0 <= k <= |t| && Like(q + "%", t[k..]);
      LikePrefix(q, t[k..]);
      FoldPrefixIsOccurrence(q, t, k);
      assert OccursAt(lt, lq, k);
    }
    if ContainsIgnoringCase(t, q) {
      var k: nat :| k <= |lt| && OccursAt(lt, lq, k);
      FoldPrefixIsOccurrence(q, t, k);
      LikePrefix(q, t[k..]);
      assert Like(q + "%", t[k..]);
    }
  }
}

=== FILE: pipeline.dfy ===
/**
 * `run_pipeline`: download, normalise (writing the processed snapshot),
 * upsert, sweep. The snapshot file name, the clock, whether the snapshot can
 * be written, where the database fails and which removals fail are inputs.
 */
module Pipeline {
  import opened Documents
  import opened Store
  import opened Retention

  /** The persistent state an ingest run touches. */
  datatype PipelineState = PipelineState(db: Db, files: seq<Entry>)

  /** How writing the processed snapshot goes: `open(..., "w")` can fail
      before the file exists, or `json.dump` can fail after `open` has
      created or truncated it. */
  datatype SnapshotOutcome = Written | OpenFails | DumpFails

  /** What the environment contributes to one run. */
  datatype RunInputs = RunInputs(
    downloaded: seq<RawRecord>,
    snapshotName: string,
    snapshot: SnapshotOutcome,
    storeFault: StoreFault,
    now: int,
    removeFails: set<string>)

  /** The directory after `json.dump` to `snapshotName` (created or
      truncated, so its modification time is `now`). */
  function WriteSnapshot(files: seq<Entry>, name: string, now: int): (r: seq<Entry>)
    ensures Entry(name, true, now) in r
    ensures forall e :: e in r ==> e in files || e == Entry(name, true, now)
    ensures forall e :: e in files && e.name != name ==> e in r
  {
    if |files| == 0 then [Entry(name, true, now)]
    else if files[0].name == name then WriteSnapshot(files[1..], name, now)
    else [files[0]] + WriteSnapshot(files[1..], name, now)
  }

  /**
   * One run. An empty download ends it before anything else happens; an
   * exception while writing the snapshot is caught at the top and ends it
   * before the store and the sweep, leaving the created or truncated file
   * behind when only the dump failed; a database error is caught inside the
   * store step, after which the sweep still runs.
   */
  function RunPipeline(s: PipelineState, run: RunInputs): (r: PipelineState)
    ensures |run.downloaded| == 0 ==> r == s
    ensures run.snapshot == OpenFails ==> r == s
    ensures |run.downloaded| > 0 && run.snapshot == DumpFails ==>
              r.db == s.db && Entry(run.snapshotName, true, run.now) in r.files &&
              forall e :: e in s.files && e.name != run.snapshotName ==> e in r.files
    ensures |run.downloaded| > 0 && run.snapshot == Written ==>
              r.db == StoreToSqlite(s.db, ProcessData(run.downloaded), run.storeFault).db
    ensures forall e :: e in r.files ==> e in s.files || e == Entry(run.snapshotName, true, run.now)
    ensures |run.downloaded| > 0 && run.snapshot == Written ==>
              r.files == Sweep(WriteSnapshot(s.files, run.snapshotName, run.now), run.now, run.removeFails).remaining
  {
    if |run.downloaded| == 0 then s
    else
      var processed := ProcessData(run.downloaded);
      match run.snapshot
      case OpenFails => s
      case DumpFails => PipelineState(s.db, WriteSnapshot(s.files, run.snapshotName, run.now))
      case Written =>
        var files := WriteSnapshot(s.files, run.snapshotName, run.now);
        var stored := StoreToSqlite(s.db, processed, run.storeFault);
        PipelineState(stored.db, Sweep(files, run.now, run.removeFails).remaining)
  }

  /** The inputs of a run whose download is the built-in dataset, fetched
      from the fixed start date up to `today`. */
  predicate MockRun(run: RunInputs, today: string) {
    run.downloaded == DownloadData("2024-01-01", today)
  }

  /** The numbers the built-in dataset carries once processed. */
  lemma MockBatchKeys(today: string)
    ensures var batch := ProcessData(DownloadData("2024-01-01", today));
            |batch| == 2 && batch[0].documentNumber == "2024-12345" && batch[1].documentNumber == "2024-12346"
    ensures Keys(ProcessData(DownloadData("2024-01-01", today))) == {"2024-12345", "2024-12346"}
  {
    var batch := ProcessData(DownloadData("2024-01-01", today));
    assert batch[0].documentNumber == "2024-12345" && batch[1].documentNumber == "2024-12346";
    KeysSnoc([batch[0]], batch[1]);
    KeysSnoc([], batch[0]);
    assert batch == [batch[0]] + [batch[1]];
    assert [] + [batch[0]] == [batch[0]];
  }

  /** A run on the built-in dataset that reaches the commit leaves both of
      its normalised documents in the table. */
  lemma MockRunFillsStore(s: PipelineState, run: RunInputs, today: string)
    requires MockRun(run, today) && run.snapshot == Written
    requires run.storeFault != FailsBeforeCreate && run.storeFault != FailsBeforeCommit
    ensures var r := RunPipeline(s, run);
            var batch := ProcessData(run.downloaded);
            r.db.Created? && |batch| == 2 && batch[0] in r.db.rows && batch[1] in r.db.rows
            && "2024-12345" in Keys(r.db.rows) && "2024-12346" in Keys(r.db.rows)
  {
    MockBatchKeys(today);
    assert "2024-12345"[9] != "2024-12346"[9];
    StoredRowsOfTwo(s, run);
  }

  /** A run past the inserts on a download of two records with different
      numbers leaves both normalised records in the table. */
  lemma StoredRowsOfTwo(s: PipelineState, run: RunInputs)
    requires run.snapshot == Written
    requires run.storeFault != FailsBeforeCreate && run.storeFault != FailsBeforeCommit
    requires var batch := ProcessData(run.downloaded);
             |batch| == 2 && batch[0].documentNumber != batch[1].documentNumber
    ensures var r := RunPipeline(s, run);
            var batch := ProcessData(run.downloaded);
            r.db.Created? && batch[0] in r.db.rows && batch[1] in r.db.rows
            && Keys(batch) <= Keys(r.db.rows)
  {
    var batch := ProcessData(run.downloaded);
    var rows := UpsertAll(RowsOf(s.db), batch);
    assert RunPipeline(s, run).db == Created(rows);
    assert LastIndexOf(batch, batch[0].documentNumber, 0);
    assert LastIndexOf(batch, batch[1].documentNumber, 1);
    LastRowStored(RowsOf(s.db), batch, 0);
    LastRowStored(RowsOf(s.db), batch, 1);
  }

  /** The snapshot file a successful run writes survives that run's sweep. */
  lemma SnapshotSurvives(s: PipelineState, run: RunInputs)
    requires |run.downloaded| > 0 && run.snapshot == Written
    ensures Entry(run.snapshotName, true, run.now) in RunPipeline(s, run).files
  {
    var files := WriteSnapshot(s.files, run.snapshotName, run.now);
    SweepKeepsFresh(files, run.now, run.removeFails, Entry(run.snapshotName, true, run.now));
  }

  /** Running the pipeline again on the same download leaves the table as
      the first run left it. */
  lemma RerunKeepsTable(s: PipelineState, run: RunInputs, run2: RunInputs)
    requires run.snapshot == Written && run.storeFault == NoFault
    requires run2.downloaded == run.downloaded
    ensures RunPipeline(RunPipeline(s, run), run2).db == RunPipeline(s, run).db
  {
    if |run.downloaded| > 0 {
      UpsertAllIdempotent(RowsOf(s.db), ProcessData(run.downloaded));
    }
  }
}

=== FILE: query.dfy ===
/**
 * `fetch_documents_from_db`: validate both dates, reject a blank query,
 * then select the rows in the inclusive date range whose title or abstract
 * is `LIKE '%query%'` and, when a type is given, whose type equals it.
 */
module Query {
  import opened Wrappers
  import opened Text
  import opened Dates
  import opened SqlLike
  import opened Documents
  import opened Store

  const INVALID_DATE: string := "Invalid date format. Use YYYY-MM-DD."
  const EMPTY_QUERY: string := "Query cannot be empty."
  const DB_FAILURE_PREFIX: string := "Database query failed: "
  /** The `sqlite3.Error` text when the ingest has never created the table. */
  const NO_SUCH_TABLE: string := "no such table: documents"

  /** A list of rows, or the `{"error": ...}` dictionary. */
  datatype FetchResult = Rows(docs: seq<Document>) | Error(message: string)

  /** Python truthiness of `doc_type`: `None` and `""` add no condition. */
  predicate TypeFilterActive(docType: Option<string>) {
    docType.Some? && docType.value != ""
  }

  /** The `WHERE` clause, for one row. */
  predicate RowMatches(d: Document, query: string, startDate: string, endDate: string, docType: Option<string>) {
    && TextLe(startDate, d.publicationDate)
    && TextLe(d.publicationDate, endDate)
    && (Like(Surround(query), d.title) || Like(Surround(query), d.abstractText))
    && (TypeFilterActive(docType) ==> d.docType == docType.value)
  }

  /** The rows the `SELECT` returns, in table order. */
  function Select(rows: Table, query: string, startDate: string, endDate: string, docType: Option<string>): (r: seq<Document>)
    ensures |r| <= |rows|
    ensures forall d :: d in r <==> d in rows && RowMatches(d, query, startDate, endDate, docType)
  {
    if |rows| == 0 then []
    else
      var p := Select(rows[..|rows| - 1], query, startDate, endDate, docType);
      var d := rows[|rows| - 1];
      assert rows == rows[..|rows| - 1] + [d];
      if RowMatches(d, query, startDate, endDate, docType) then p + [d] else p
  }

  /** Selection keeps table order: it distributes over concatenation. */
  lemma {:induction false} SelectConcat(a: Table, b: Table, query: string, startDate: string, endDate: string, docType: Option<string>)
    ensures Select(a + b, query, startDate, endDate, docType)
            == Select(a, query, startDate, endDate, docType) + Select(b, query, startDate, endDate, docType)
    decreases |b|
  {
    if |b| == 0 {
      assert a + b == a;
    } else {
      assert (a + b)[..|a + b| - 1] == a + b[..|b| - 1];
      SelectConcat(a, b[..|b| - 1], query, startDate, endDate, docType);
    }
  }

  /** The query. Date validation comes first, then the blank check, then
      the database; a database error becomes an error result. */
  function FetchDocuments(query: string, startDate: string, endDate: string, docType: Option<string>,
                          db: Db, fault: Option<string>): (r: FetchResult)
    ensures r == Error(INVALID_DATE) <==> !IsValidDate(startDate) || !IsValidDate(endDate)
    ensures IsValidDate(startDate) && IsValidDate(endDate) ==> (r == Error(EMPTY_QUERY) <==> AllSpace(query))
    ensures r.Rows? <==> IsValidDate(startDate) && IsValidDate(endDate) && !AllSpace(query) && db.Created? && fault.None?
    ensures r.Rows? ==> forall d :: d in r.docs <==> d in db.rows && RowMatches(d, query, startDate, endDate, docType)
    ensures r.Rows? ==> r.docs == Select(db.rows, query, startDate, endDate, docType)
    ensures IsValidDate(startDate) && IsValidDate(endDate) && !AllSpace(query) && db.Uncreated? ==>
              r == Error(DB_FAILURE_PREFIX + NO_SUCH_TABLE)
    ensures IsValidDate(startDate) && IsValidDate(endDate) && !AllSpace(query) && db.Created? && fault.Some? ==>
              r == Error(DB_FAILURE_PREFIX + fault.value)
  {
    StripEmptyIffBlank(query);
    if !IsValidDate(startDate) || !IsValidDate(endDate) then Error(INVALID_DATE)
    else if Strip(query) == [] then Error(EMPTY_QUERY)
    else if db.Uncreated? then DbError(NO_SUCH_TABLE)
    else if fault.Some? then DbError(fault.value)
    else Rows(Select(db.rows, query, startDate, endDate, docType))
  }

  /** The error result for an `sqlite3.Error` with message `cause`. */
  function DbError(cause: string): (r: FetchResult)
    ensures r == Error(DB_FAILURE_PREFIX + cause)
    ensures r != Error(INVALID_DATE) && r != Error(EMPTY_QUERY)
  {
    var m := DB_FAILURE_PREFIX + cause;
    assert m[0] == 'D';
    Error(m)
  }

  /** Both ends of the date range are inclusive. */
  lemma DateBoundsInclusive(query: string, startDate: string, endDate: string, docType: Option<string>, rows: Table, d: Document)
    requires IsValidDate(startDate) && IsValidDate(endDate) && !AllSpace(query)
    requires TextLe(startDate, endDate)
    requires d in rows && (d.publicationDate == startDate || d.publicationDate == endDate)
    requires Like(Surround(query), d.title) || Like(Surround(query), d.abstractText)
    requires TypeFilterActive(docType) ==> d.docType == docType.value
    ensures d in FetchDocuments(query, startDate, endDate, docType, Created(rows), None).docs
  {
    TextLeReflexive(startDate);
    TextLeReflexive(endDate);
  }

  /** For rows whose publication date is stored as `YYYY-MM-DD` (as the
      ingest stores it), the date condition is the calendar interval between
      the two bounds, both ends included. */
  lemma CalendarWindow(query: string, from: Date, to: Date, docType: Option<string>, rows: Table,
                       d: Document, day: Date)
    requires IsCalendarDate(from) && IsCalendarDate(to) && IsCalendarDate(day)
    requires !AllSpace(query) && d.publicationDate == FormatDate(day)
    ensures var r := FetchDocuments(query, FormatDate(from), FormatDate(to), docType, Created(rows), None);
            r.Rows? && (d in r.docs <==>
              && d in rows
              && DateLe(from, day) && DateLe(day, to)
              && (Like(Surround(query), d.title) || Like(Surround(query), d.abstractText))
              && (TypeFilterActive(docType) ==> d.docType == docType.value))
  {
    ParseFormatted(from);
    ParseFormatted(to);
    FormatDateOrder(from, day);
    FormatDateOrder(day, to);
  }

  /** For a query without `LIKE` wildcards, a row is returned exactly when
      it is in range, has the requested type, and the query occurs in its
      title or abstract ignoring ASCII case. */
  lemma SubstringSearch(query: string, startDate: string, endDate: string, docType: Option<string>, rows: Table, d: Document)
    requires IsValidDate(startDate) && IsValidDate(endDate) && !AllSpace(query)
    requires NoWildcards(query)
    ensures d in FetchDocuments(query, startDate, endDate, docType, Created(rows), None).docs <==>
              && d in rows
              && TextLe(startDate, d.publicationDate) && TextLe(d.publicationDate, endDate)
              && (ContainsIgnoringCase(d.title, query) || ContainsIgnoringCase(d.abstractText, query))
              && (TypeFilterActive(docType) ==> d.docType == docType.value)
  {
    LikeSurroundedIsSubstring(query, d.title);
    LikeSurroundedIsSubstring(query, d.abstractText);
  }

  /** Passing no type and passing the empty type select the same rows. */
  lemma NoTypeEqualsEmptyType(query: string, startDate: string, endDate: string, db: Db, fault: Option<string>)
    ensures FetchDocuments(query, startDate, endDate, None, db, fault)
            == FetchDocuments(query, startDate, endDate, Some(""), db, fault)
  {
    if db.Created? {
      SelectSameMatches(db.rows, query, startDate, endDate, None, Some(""));
    }
  }

  lemma {:induction false} SelectSameMatches(rows: Table, query: string, startDate: string, endDate: string,
                                             t1: Option<string>, t2: Option<string>)
    requires !TypeFilterActive(t1) && !TypeFilterActive(t2)
    ensures Select(rows, query, startDate, endDate, t1) == Select(rows, query, startDate, endDate, t2)
    decreases |rows|
  {
    if |rows| > 0 {
      SelectSameMatches(rows[..|rows| - 1], query, startDate, endDate, t1, t2);
    }
  }

  /** `"All"` is an ordinary type value: it keeps only rows typed `All`. */
  lemma AllIsLiteralType(query: string, startDate: string, endDate: string, db: Db, fault: Option<string>, d: Document)
    requires FetchDocuments(query, startDate, endDate, Some("All"), db, fault).Rows?
    requires d in FetchDocuments(query, startDate, endDate, Some("All"), db, fault).docs
    ensures d.docType == "All"
  {
  }
}

=== FILE: retention.dfy ===
/**
 * `clean_old_files`: the retention sweep over the snapshot directory. The
 * directory listing, the clock and the outcome of each `os.remove` are
 * inputs. Times are naive local timestamps in microseconds, the resolution
 * of Python's `datetime`.
 */
module Retention {

  /** One directory entry: its name, whether it is a regular file, and its
      modification time. */
  datatype Entry = Entry(name: string, isFile: bool, mtime: int)

  const MICROS_PER_DAY: int := 24 * 60 * 60 * 1_000_000

  /** The retention window: seven days. */
  const RETENTION: int := 7 * MICROS_PER_DAY

  /** A regular file strictly older than `now` minus the retention window. */
  predicate Stale(e: Entry, now: int) {
    e.isFile && e.mtime < now - RETENTION
  }

  datatype SweepResult = SweepResult(deleted: seq<string>, remaining: seq<Entry>)

  /**
   * The sweep, entry by entry in listing order. Deleting a stale file whose
   * removal fails (its name is in `failing`) raises; the one `try` around the
   * whole loop catches it, so that entry and all later ones stay.
   */
  function Sweep(entries: seq<Entry>, now: int, failing: set<string>): (r: SweepResult)
    ensures |r.deleted| + |r.remaining| == |entries|
    ensures forall e :: e in r.remaining ==> e in entries
  {
    if |entries| == 0 then SweepResult([], [])
    else
      var e := entries[0];
      if Stale(e, now) && e.name in failing then SweepResult([], entries)
      else
        var rest := Sweep(entries[1..], now, failing);
        if Stale(e, now) then SweepResult([e.name] + rest.deleted, rest.remaining)
        else SweepResult(rest.deleted, [e] + rest.remaining)
  }

  /** The sweep hits no failing removal. */
  predicate NoFailure(entries: seq<Entry>, now: int, failing: set<string>) {
    forall i :: 0 <= i < |entries| && Stale(entries[i], now) ==> entries[i].name !in failing
  }

  /** Without a failing removal the sweep deletes exactly the stale regular
      files and keeps every other entry, in listing order. */
  lemma {:induction false} SweepWithoutFailure(entries: seq<Entry>, now: int, failing: set<string>)
    requires NoFailure(entries, now, failing)
    ensures forall e :: e in Sweep(entries, now, failing).remaining <==> e in entries && !Stale(e, now)
    ensures forall n :: n in Sweep(entries, now, failing).deleted <==>
              exists e :: e in entries && Stale(e, now) && e.name == n
    decreases |entries|
  {
    if |entries| > 0 {
      var rest := entries[1..];
      assert NoFailure(rest, now, failing) by {
        forall i | 0 <= i < |rest| && Stale(rest[i], now) ensures rest[i].name !in failing {
          assert rest[i] == entries[i + 1];
        }
      }
      SweepWithoutFailure(rest, now, failing);
      assert entries == [entries[0]] + rest;
    }
  }

  /** A failing removal ends the sweep: when `entries[i]` is the first stale
      file whose removal fails, the sweep is that of the entries before it,
      and it and every later entry stay. */
  lemma {:induction false} SweepStopsAtFailure(entries: seq<Entry>, i: nat, now: int, failing: set<string>)
    requires i < |entries| && Stale(entries[i], now) && entries[i].name in failing
    requires NoFailure(entries[..i], now, failing)
    ensures var p := Sweep(entries[..i], now, failing);
            Sweep(entries, now, failing) == SweepResult(p.deleted, p.remaining + entries[i..])
    decreases i
  {
    if i == 0 {
      assert entries[..0] == [] && entries[0..] == entries;
    } else {
      var rest := entries[1..];
      assert rest[..i - 1] == entries[..i][1..];
      assert rest[i - 1..] == entries[i..];
      var pre := rest[..i - 1];
      assert NoFailure(pre, now, failing) by {
        forall j | 0 <= j < |pre| && Stale(pre[j], now) ensures pre[j].name !in failing {
          assert pre[j] == entries[..i][j + 1];
        }
      }
      assert entries[..i][0] == entries[0];
      SweepStopsAtFailure(rest, i - 1, now, failing);
    }
  }

  /** The same, entry by entry: the deleted names are those of the stale
      files before the failing one, and an entry stays iff it comes at or
      after the failing one or is not stale. */
  lemma SweepFailureEntries(entries: seq<Entry>, i: nat, now: int, failing: set<string>)
    requires i < |entries| && Stale(entries[i], now) && entries[i].name in failing
    requires NoFailure(entries[..i], now, failing)
    ensures forall e :: e in Sweep(entries, now, failing).remaining <==>
              (e in entries[..i] && !Stale(e, now)) || e in entries[i..]
    ensures forall n :: n in Sweep(entries, now, failing).deleted <==>
              exists e :: e in entries[..i] && Stale(e, now) && e.name == n
  {
    SweepStopsAtFailure(entries, i, now, failing);
    SweepWithoutFailure(entries[..i], now, failing);
  }

  /** Directories and other non-files are never deleted, whatever the clock. */
  lemma SweepKeepsNonFiles(entries: seq<Entry>, now: int, failing: set<string>, e: Entry)
    requires e in entries && !e.isFile
    ensures e in Sweep(entries, now, failing).remaining
  {
    SweepKeepsFresh(entries, now, failing, e);
  }

  /** With a clean directory, a file eight days old is deleted and one six
      days old is kept. */
  lemma SweepEightAndSixDays(now: int)
    ensures var old8 := Entry("old.json", true, now - 8 * MICROS_PER_DAY);
            var new6 := Entry("new.json", true, now - 6 * MICROS_PER_DAY);
            Sweep([old8, new6], now, {}) == SweepResult(["old.json"], [new6])
  {
  }

  /** A file whose age is exactly the retention window is kept: the
      comparison is strict. */
  lemma ThresholdFileSurvives(entries: seq<Entry>, now: int, failing: set<string>, e: Entry)
    requires e in entries && e.mtime == now - RETENTION
    ensures e in Sweep(entries, now, failing).remaining
  {
    SweepKeepsFresh(entries, now, failing, e);
  }

  /** Any entry that is not stale is kept. */
  lemma {:induction false} SweepKeepsFresh(entries: seq<Entry>, now: int, failing: set<string>, e: Entry)
    requires e in entries && !Stale(e, now)
    ensures e in Sweep(entries, now, failing).remaining
    decreases |entries|
  {
    if entries[0] != e {
      if !(Stale(entries[0], now) && entries[0].name in failing) {
        SweepKeepsFresh(entries[1..], now, failing, e);
      }
    }
  }

  /** The sweep of a suffix, unfolded by one entry. */
  lemma SweepFrom(entries: seq<Entry>, i: nat, now: int, failing: set<string>)
    requires i < |entries|
    ensures var e := entries[i];
            var rest := Sweep(entries[i + 1..], now, failing);
            Sweep(entries[i..], now, failing)
            == if Stale(e, now) && e.name in failing then SweepResult([], entries[i..])
               else if Stale(e, now) then SweepResult([e.name] + rest.deleted, rest.remaining)
               else SweepResult(rest.deleted, [e] + rest.remaining)
  {
    assert entries[i..][1..] == entries[i + 1..];
  }

  /**
   * The loop of `clean_old_files`, producing the names it removes and the
   * entries left in the directory.
   */
  method CleanOldFiles(entries: seq<Entry>, now: int, failing: set<string>)
    returns (deleted: seq<string>, remaining: seq<Entry>)
    ensures SweepResult(deleted, remaining) == Sweep(entries, now, failing)
    ensures forall n :: n in deleted ==> exists e :: e in entries && Stale(e, now) && e.name == n
  {
    deleted, remaining := [], [];
    var i := 0;
    assert entries[0..] == entries;
    while i < |entries|
      invariant 0 <= i <= |entries|
      invariant forall n :: n in deleted ==> exists e :: e in entries && Stale(e, now) && e.name == n
      invariant var rest := Sweep(entries[i..], now, failing);
                Sweep(entries, now, failing) == SweepResult(deleted + rest.deleted, remaining + rest.remaining)
    {
      var e := entries[i];
      SweepFrom(entries, i, now, failing);
      ghost var rest := Sweep(entries[i + 1..], now, failing);
      if Stale(e, now) {
        if e.name in failing {
          assert deleted + [] == deleted;
          remaining := remaining + entries[i..];
          return;
        }
        assert (deleted + [e.name]) + rest.deleted == deleted + ([e.name] + rest.deleted);
        deleted := deleted + [e.name];
      } else {
        assert (remaining + [e]) + rest.remaining == remaining + ([e] + rest.remaining);
        remaining := remaining + [e];
      }
      i := i + 1;
    }
  }
}

=== FILE: store.dfy ===
/**
 * The `documents` table and `store_to_sqlite`. The table is a sequence of
 * rows in SQLite rowid order; `INSERT OR REPLACE` deletes the row holding the
 * same `document_number` and appends the new row at the end. `AsMap` is the
 * keyed view of a table, and a batch upsert is, in that view, a fold of map
 * updates.
 */
module Store {
  import opened Wrappers
  import opened Documents

  type Table = seq<Document>

  /** The database file: without the `documents` table until the first
      ingest creates it. */
  datatype Db = Uncreated | Created(rows: Table)

  function Keys(t: Table): set<string> {
    if |t| == 0 then {} else Keys(t[..|t| - 1]) + {t[|t| - 1].documentNumber}
  }

  /** The primary-key constraint. */
  predicate UniqueKeys(t: Table) {
    forall i, j :: 0 <= i < j < |t| ==> t[i].documentNumber != t[j].documentNumber
  }

  lemma {:induction false} KeysAt(t: Table, k: string)
    ensures k in Keys(t) <==> exists i :: 0 <= i < |t| && t[i].documentNumber == k
    decreases |t|
  {
    if |t| > 0 {
      KeysAt(t[..|t| - 1], k);
      if exists i :: 0 <= i < |t| && t[i].documentNumber == k {
        var i :| 0 <= i < |t| && t[i].documentNumber == k;
        if i < |t| - 1 { assert t[..|t| - 1][i] == t[i]; }
      }
    }
  }

  lemma KeysSnoc(p: Table, d: Document)
    ensures Keys(p + [d]) == Keys(p) + {d.documentNumber}
  {
    assert (p + [d])[..|p + [d]| - 1] == p;
  }

  lemma UniqueSnoc(p: Table, d: Document)
    ensures UniqueKeys(p + [d]) <==> UniqueKeys(p) && d.documentNumber !in Keys(p)
  {
    var t := p + [d];
    KeysAt(p, d.documentNumber);
    if UniqueKeys(t) {
      assert forall i, j :: 0 <= i < j < |p| ==> p[i] == t[i] && p[j] == t[j];
      assert forall i :: 0 <= i < |p| ==> p[i] == t[i] && t[|p|] == d;
    }
  }

  /** The rows whose key is not in `ks`, in their order. */
  function RemoveKeys(t: Table, ks: set<string>): (r: Table)
    ensures |r| <= |t|
    ensures Keys(r) == Keys(t) - ks
  {
    if |t| == 0 then []
    else
      var p := RemoveKeys(t[..|t| - 1], ks);
      var d := t[|t| - 1];
      if d.documentNumber in ks then p
      else
        KeysSnoc(p, d);
        p + [d]
  }

  lemma {:induction false} RemoveKeysUnique(t: Table, ks: set<string>)
    requires UniqueKeys(t)
    ensures UniqueKeys(RemoveKeys(t, ks))
    decreases |t|
  {
    if |t| > 0 {
      var p := t[..|t| - 1];
      var d := t[|t| - 1];
      assert t == p + [d];
      UniqueSnoc(p, d);
      RemoveKeysUnique(p, ks);
      UniqueSnoc(RemoveKeys(p, ks), d);
    }
  }

  /** One `INSERT OR REPLACE` row: the row holding the same key goes, and
      the new row comes last. */
  function Upsert(t: Table, d: Document): (r: Table)
    ensures Keys(r) == Keys(t) + {d.documentNumber}
    ensures |r| > 0 && r[|r| - 1] == d
  {
    var p := RemoveKeys(t, {d.documentNumber});
    KeysSnoc(p, d);
    p + [d]
  }

  lemma UpsertUnique(t: Table, d: Document)
    requires UniqueKeys(t)
    ensures UniqueKeys(Upsert(t, d))
  {
    RemoveKeysUnique(t, {d.documentNumber});
    UniqueSnoc(RemoveKeys(t, {d.documentNumber}), d);
  }

  /** The loop of `store_to_sqlite`: the batch's rows upserted one by one. */
  function UpsertAll(t: Table, b: seq<Document>): (r: Table)
    ensures Keys(r) == Keys(t) + Keys(b)
  {
    if |b| == 0 then t
    else Upsert(UpsertAll(t, b[..|b| - 1]), b[|b| - 1])
  }

  /** Deletion keeps every row whose key is not deleted. */
  lemma {:induction false} RemoveKeysKeeps(t: Table, ks: set<string>, x: Document)
    requires x in t && x.documentNumber !in ks
    ensures x in RemoveKeys(t, ks)
    decreases |t|
  {
    if t[|t| - 1] != x {
      var p := t[..|t| - 1];
      assert t == p + [t[|t| - 1]];
      RemoveKeysKeeps(p, ks, x);
    }
  }

  /** Upserting keeps the primary-key constraint. */
  lemma {:induction false} UpsertAllUnique(t: Table, b: seq<Document>)
    requires UniqueKeys(t)
    ensures UniqueKeys(UpsertAll(t, b))
    decreases |b|
  {
    if |b| > 0 {
      UpsertAllUnique(t, b[..|b| - 1]);
      UpsertUnique(UpsertAll(t, b[..|b| - 1]), b[|b| - 1]);
    }
  }

  // ---------------------------------------------------------------------
  // Shape of an upserted table

  lemma {:induction false} RemoveKeysConcat(a: Table, b: Table, ks: set<string>)
    ensures RemoveKeys(a + b, ks) == RemoveKeys(a, ks) + RemoveKeys(b, ks)
    decreases |b|
  {
    if |b| == 0 {
      assert a + b == a;
    } else {
      assert (a + b)[..|a + b| - 1] == a + b[..|b| - 1];
      RemoveKeysConcat(a, b[..|b| - 1], ks);
    }
  }

  lemma {:induction false} RemoveKeysTwice(t: Table, ks1: set<string>, ks2: set<string>)
    ensures RemoveKeys(RemoveKeys(t, ks1), ks2) == RemoveKeys(t, ks1 + ks2)
    decreases |t|
  {
    if |t| > 0 {
      var d := t[|t| - 1];
      RemoveKeysTwice(t[..|t| - 1], ks1, ks2);
      if d.documentNumber !in ks1 {
        var p := RemoveKeys(t[..|t| - 1], ks1);
        assert (p + [d])[..|p + [d]| - 1] == p;
      }
    }
  }

  lemma {:induction false} RemoveKeysOfCovered(t: Table, ks: set<string>)
    requires Keys(t) <= ks
    ensures RemoveKeys(t, ks) == []
    decreases |t|
  {
    if |t| > 0 {
      KeysSnoc(t[..|t| - 1], t[|t| - 1]);
      assert t == t[..|t| - 1] + [t[|t| - 1]];
      RemoveKeysOfCovered(t[..|t| - 1], ks);
    }
  }

  /**
   * After a batch upsert the table holds the old rows whose keys the batch
   * does not mention, in their old order, followed by the rows the batch
   * leaves standing (the last row per key) in the order they were written.
   */
  lemma {:induction false} UpsertAllShape(t: Table, b: seq<Document>)
    ensures UpsertAll(t, b) == RemoveKeys(t, Keys(b)) + UpsertAll([], b)
    decreases |b|
  {
    if |b| == 0 {
      assert RemoveKeys(t, {}) == t by { RemoveKeysNone(t); }
    } else {
      var d := b[|b| - 1];
      var pre := b[..|b| - 1];
      var k := {d.documentNumber};
      UpsertAllShape(t, pre);
      ShapeStep(t, UpsertAll([], pre), Keys(pre), k, d);
      assert Keys(b) == Keys(pre) + k;
    }
  }

  lemma ShapeStep(t: Table, u: Table, kpre: set<string>, k: set<string>, d: Document)
    ensures RemoveKeys(RemoveKeys(t, kpre) + u, k) + [d] == RemoveKeys(t, kpre + k) + (RemoveKeys(u, k) + [d])
  {
    RemoveKeysConcat(RemoveKeys(t, kpre), u, k);
    RemoveKeysTwice(t, kpre, k);
  }

  lemma {:induction false} RemoveKeysNone(t: Table)
    ensures RemoveKeys(t, {}) == t
    decreases |t|
  {
    if |t| > 0 {
      RemoveKeysNone(t[..|t| - 1]);
      assert t == t[..|t| - 1] + [t[|t| - 1]];
    }
  }

  /** Upserting the same batch a second time leaves the table as it was,
      row order included. */
  lemma UpsertAllIdempotent(t: Table, b: seq<Document>)
    ensures UpsertAll(UpsertAll(t, b), b) == UpsertAll(t, b)
  {
    var ks := Keys(b);
    var u := UpsertAll([], b);
    var once := UpsertAll(t, b);
    UpsertAllShape(t, b);
    assert once == RemoveKeys(t, ks) + u;
    UpsertAllShape(once, b);
    assert Keys(u) <= ks;
    RemoveCoveredTail(RemoveKeys(t, ks), u, ks);
    assert RemoveKeys(once, ks) == RemoveKeys(RemoveKeys(t, ks), ks);
    RemoveKeysTwice(t, ks, ks);
    assert ks + ks == ks;
    assert RemoveKeys(once, ks) == RemoveKeys(t, ks);
  }

  lemma RemoveCoveredTail(x: Table, u: Table, ks: set<string>)
    requires Keys(u) <= ks
    ensures RemoveKeys(x + u, ks) == RemoveKeys(x, ks)
  {
    RemoveKeysConcat(x, u, ks);
    RemoveKeysOfCovered(u, ks);
    assert RemoveKeys(x, ks) + [] == RemoveKeys(x, ks);
  }

  // ---------------------------------------------------------------------
  // The keyed view

  /** Folding a batch into a key-to-document map, later entries winning. */
  function MapUpsertAll(m: map<string, Document>, b: seq<Document>): (r: map<string, Document>)
    ensures r.Keys == m.Keys + Keys(b)
  {
    if |b| == 0 then m
    else
      var d := b[|b| - 1];
      MapUpsertAll(m, b[..|b| - 1])[d.documentNumber := d]
  }

  /** The table as a map from primary key to row. */
  function AsMap(t: Table): map<string, Document> {
    MapUpsertAll(map[], t)
  }

  /** `b[i]` carries `k` and no later row of `b` does. */
  predicate LastIndexOf(b: seq<Document>, k: string, i: int) {
    0 <= i < |b| && b[i].documentNumber == k && forall j :: i < j < |b| ==> b[j].documentNumber != k
  }

  /** The last document of a batch that carries key `k`. */
  function LastWithKey(b: seq<Document>, k: string): (r: Option<Document>)
    ensures r.Some? <==> k in Keys(b)
    ensures r.Some? ==> r.value in b && r.value.documentNumber == k
    ensures r.Some? ==> exists i :: LastIndexOf(b, k, i) && b[i] == r.value
  {
    if |b| == 0 then None
    else if b[|b| - 1].documentNumber == k then
      assert LastIndexOf(b, k, |b| - 1);
      Some(b[|b| - 1])
    else
      var p := b[..|b| - 1];
      var r := LastWithKey(p, k);
      assert r.Some? ==> exists i :: LastIndexOf(b, k, i) && b[i] == r.value by {
        if r.Some? {
          var i :| LastIndexOf(p, k, i) && p[i] == r.value;
          assert b[i] == p[i];
          assert forall j :: i < j < |p| ==> b[j] == p[j];
          assert LastIndexOf(b, k, i);
        }
      }
      r
  }

  /** Last write wins: a key of the batch maps to the batch's last document
      with that key, and every other key keeps its old document. */
  lemma {:induction false} MapUpsertAllLastWins(m: map<string, Document>, b: seq<Document>, k: string)
    ensures k in Keys(b) ==> MapUpsertAll(m, b)[k] == LastWithKey(b, k).value
    ensures k !in Keys(b) && k in m ==> MapUpsertAll(m, b)[k] == m[k]
    decreases |b|
  {
    if |b| > 0 {
      MapUpsertAllLastWins(m, b[..|b| - 1], k);
    }
  }

  /** Last write wins in the table too: a batch row that no later batch row
      replaces is a row of the table afterwards. */
  lemma {:induction false} LastRowStored(t: Table, b: seq<Document>, i: int)
    requires 0 <= i < |b| && LastIndexOf(b, b[i].documentNumber, i)
    ensures b[i] in UpsertAll(t, b)
    decreases |b|
  {
    if i < |b| - 1 {
      var p := b[..|b| - 1];
      var d := b[|b| - 1];
      assert LastIndexOf(p, p[i].documentNumber, i) by {
        assert p[i] == b[i];
        assert forall j :: i < j < |p| ==> p[j] == b[j];
      }
      LastRowStored(t, p, i);
      RemoveKeysKeeps(UpsertAll(t, p), {d.documentNumber}, b[i]);
    }
  }

  /** In the keyed view too, upserting a batch twice equals upserting it once. */
  lemma MapUpsertAllIdempotent(m: map<string, Document>, b: seq<Document>)
    ensures MapUpsertAll(MapUpsertAll(m, b), b) == MapUpsertAll(m, b)
  {
    var once := MapUpsertAll(m, b);
    var twice := MapUpsertAll(once, b);
    forall k | k in twice.Keys ensures twice[k] == once[k] {
      MapUpsertAllLastWins(m, b, k);
      MapUpsertAllLastWins(once, b, k);
    }
  }

  lemma {:induction false} MapUpsertAllConcat(m: map<string, Document>, a: seq<Document>, b: seq<Document>)
    ensures MapUpsertAll(m, a + b) == MapUpsertAll(MapUpsertAll(m, a), b)
    decreases |b|
  {
    if |b| == 0 {
      assert a + b == a;
    } else {
      assert (a + b)[..|a + b| - 1] == a + b[..|b| - 1];
      MapUpsertAllConcat(m, a, b[..|b| - 1]);
    }
  }

  lemma {:induction false} MapUpsertAllRemove(m: map<string, Document>, t: Table, k: string)
    ensures MapUpsertAll(m - {k}, RemoveKeys(t, {k})) == MapUpsertAll(m, t) - {k}
    decreases |t|
  {
    if |t| > 0 {
      var d := t[|t| - 1];
      var p := RemoveKeys(t[..|t| - 1], {k});
      var before := MapUpsertAll(m, t[..|t| - 1]);
      MapUpsertAllRemove(m, t[..|t| - 1], k);
      assert MapUpsertAll(m, t) == before[d.documentNumber := d];
      if d.documentNumber == k {
        assert RemoveKeys(t, {k}) == p;
        MapUpdateThenRemove(before, k, d);
      } else {
        assert RemoveKeys(t, {k}) == p + [d];
        MapUpsertAllSnoc(m - {k}, p, d);
        MapRemoveThenUpdate(before, k, d);
      }
    }
  }

  lemma MapUpdateThenRemove(m: map<string, Document>, k: string, d: Document)
    ensures m[k := d] - {k} == m - {k}
  {
  }

  lemma MapRemoveThenUpdate(m: map<string, Document>, k: string, d: Document)
    requires d.documentNumber != k
    ensures (m - {k})[d.documentNumber := d] == m[d.documentNumber := d] - {k}
  {
  }

  lemma MapUpsertAllSnoc(m: map<string, Document>, p: Table, d: Document)
    ensures MapUpsertAll(m, p + [d]) == MapUpsertAll(m, p)[d.documentNumber := d]
  {
    assert (p + [d])[..|p + [d]| - 1] == p;
  }

  /** The table after a batch upsert, viewed as a map, is the map fold of
      the batch over the table's old map. */
  lemma {:induction false} UpsertAllAsMap(t: Table, b: seq<Document>)
    ensures AsMap(UpsertAll(t, b)) == MapUpsertAll(AsMap(t), b)
    decreases |b|
  {
    if |b| > 0 {
      var d := b[|b| - 1];
      var u := UpsertAll(t, b[..|b| - 1]);
      UpsertAllAsMap(t, b[..|b| - 1]);
      AsMapUpsert(u, d);
    }
  }

  /** One `INSERT OR REPLACE`, in the keyed view, writes the row under its
      key. */
  lemma AsMapUpsert(u: Table, d: Document)
    ensures AsMap(Upsert(u, d)) == AsMap(u)[d.documentNumber := d]
  {
    var k := d.documentNumber;
    var empty: map<string, Document> := map[];
    MapUpsertAllSnoc(empty, RemoveKeys(u, {k}), d);
    MapUpsertAllRemove(empty, u, k);
    assert empty - {k} == empty;
    MapRemoveThenWrite(AsMap(u), d);
  }

  lemma MapRemoveThenWrite(m: map<string, Document>, d: Document)
    ensures (m - {d.documentNumber})[d.documentNumber := d] == m[d.documentNumber := d]
  {
  }

  lemma {:induction false} UniqueKeysCount(t: Table)
    requires UniqueKeys(t)
    ensures |Keys(t)| == |t|
    decreases |t|
  {
    if |t| > 0 {
      var p := t[..|t| - 1];
      var d := t[|t| - 1];
      assert t == p + [d];
      UniqueSnoc(p, d);
      UniqueKeysCount(p);
    }
  }

  /** The row count `store_to_sqlite` logs after the commit: the number of
      distinct keys among the old rows and the batch. */
  lemma UpsertAllCount(t: Table, b: seq<Document>)
    requires UniqueKeys(t)
    ensures |UpsertAll(t, b)| == |Keys(t) + Keys(b)|
  {
    UpsertAllUnique(t, b);
    UniqueKeysCount(UpsertAll(t, b));
  }

  // ---------------------------------------------------------------------
  // store_to_sqlite

  /** Where an `sqlite3.Error` interrupts `store_to_sqlite`, if at all. */
  datatype StoreFault =
    | NoFault
    | FailsBeforeCreate   // opening the file or creating the table
    | FailsBeforeCommit   // an insert: the open transaction is rolled back
    | FailsAtCount        // the count query, after the commit
    | FailsAtSample       // the sample query, after the count is logged

  datatype StoreResult = StoreResult(db: Db, loggedCount: Option<nat>)

  function RowsOf(db: Db): Table {
    if db.Created? then db.rows else []
  }

  /**
   * `store_to_sqlite`: the table is created if missing (outside the insert
   * transaction), the batch is upserted and committed together, and the row
   * count is logged before the sample query runs. An error is caught and
   * logged: before the commit no row changes, after it the batch stays, and
   * a failing sample query still leaves the count logged.
   */
  function StoreToSqlite(db: Db, batch: seq<Document>, fault: StoreFault): (r: StoreResult)
    ensures fault == FailsBeforeCreate ==> r.db == db
    ensures fault == FailsBeforeCommit ==> r.db == Created(RowsOf(db))
    ensures fault in {NoFault, FailsAtCount, FailsAtSample} ==> r.db == Created(UpsertAll(RowsOf(db), batch))
    ensures r.db.Created? ==> Keys(r.db.rows) <= Keys(RowsOf(db)) + Keys(batch)
    ensures UniqueKeys(RowsOf(db)) && r.loggedCount.Some? ==>
              r.loggedCount.value == |Keys(RowsOf(db)) + Keys(batch)|
    ensures r.loggedCount.Some? <==> fault in {NoFault, FailsAtSample}
  {
    var oldRows := RowsOf(db);
    match fault
    case FailsBeforeCreate => StoreResult(db, None)
    case FailsBeforeCommit => StoreResult(Created(oldRows), None)
    case FailsAtCount => StoreResult(Created(UpsertAll(oldRows, batch)), None)
    case _ =>
      var rows := UpsertAll(oldRows, batch);
      assert UniqueKeys(oldRows) ==> |rows| == |Keys(oldRows) + Keys(batch)| by {
        if UniqueKeys(oldRows) { UpsertAllCount(oldRows, batch); }
      }
      StoreResult(Created(rows), Some(|rows|))
  }
}

=== FILE: text.dfy ===
/**
 * The string operations the chat path relies on, with Python's meaning:
 * `str.strip()`, `in` on strings, `str.find`, `str.split(sep)`,
 * `str.replace(c, "")` and `str.lower()` (restricted to ASCII letters).
 */
module Text {
  import opened Wrappers

  /** The characters for which Python's `str.isspace()` holds, i.e. what
      `str.strip()` removes when called without arguments. */
  predicate IsSpace(c: char) {
    || c == ' '
    || ('\t' <= c <= '\r')
    || ('\U{1C}' <= c <= '\U{1F}')
    || c == '\U{85}' || c == '\U{A0}' || c == '\U{1680}'
    || ('\U{2000}' <= c <= '\U{200A}')
    || c == '\U{2028}' || c == '\U{2029}' || c == '\U{202F}'
    || c == '\U{205F}' || c == '\U{3000}'
  }

  predicate AllSpace(s: string) {
    forall i :: 0 <= i < |s| ==> IsSpace(s[i])
  }

  /** Where the run of whitespace that starts at `i` ends: the forward scan
      of `str.strip()`. */
  function SkipSpaces(s: string, i: nat): (j: nat)
    requires i <= |s|
    ensures i <= j <= |s|
    ensures forall k :: i <= k < j ==> IsSpace(s[k])
    ensures j < |s| ==> !IsSpace(s[j])
    decreases |s| - i
  {
    if i < |s| && IsSpace(s[i]) then SkipSpaces(s, i + 1) else i
  }

  /** Where the run of whitespace that ends at `j` starts, not going below
      `lo`: the backward scan of `str.strip()`. */
  function SkipSpacesBack(s: string, lo: nat, j: nat): (e: nat)
    requires lo <= j <= |s|
    ensures lo <= e <= j
    ensures forall k :: e <= k < j ==> IsSpace(s[k])
    ensures e > lo ==> !IsSpace(s[e - 1])
  {
    if j > lo && IsSpace(s[j - 1]) then SkipSpacesBack(s, lo, j - 1) else j
  }

  /** The forward scan is determined by what it stops at. */
  lemma SkipSpacesAt(s: string, i: nat, j: nat)
    requires i <= j <= |s|
    requires forall k :: i <= k < j ==> IsSpace(s[k])
    requires j < |s| ==> !IsSpace(s[j])
    ensures SkipSpaces(s, i) == j
  {
  }

  /** The backward scan is determined by what it stops at. */
  lemma SkipSpacesBackAt(s: string, lo: nat, j: nat, e: nat)
    requires lo <= e <= j <= |s|
    requires forall k :: e <= k < j ==> IsSpace(s[k])
    requires e > lo ==> !IsSpace(s[e - 1])
    ensures SkipSpacesBack(s, lo, j) == e
  {
  }

  /** How many whitespace characters `str.strip()` drops at the front. */
  function Lead(s: string): nat {
    SkipSpaces(s, 0)
  }

  /** `str.strip()`: the slice of `s` left after dropping whitespace at both
      ends. */
  function Strip(s: string): (r: string)
    ensures |r| > 0 ==> !IsSpace(r[0]) && !IsSpace(r[|r| - 1])
    ensures Lead(s) + |r| <= |s| && r == s[Lead(s)..Lead(s) + |r|]
    ensures AllSpace(s[..Lead(s)]) && AllSpace(s[Lead(s) + |r|..])
  {
    var i := Lead(s);
    var e := SkipSpacesBack(s, i, |s|);
    assert forall k :: 0 <= k < |s| - e ==> s[e..][k] == s[e + k];
    s[i..e]
  }

  /** A string is blank (Python: `not s.strip()`) exactly when it is all
      whitespace. */
  lemma StripEmptyIffBlank(s: string)
    ensures Strip(s) == [] <==> AllSpace(s)
  {
    var r := Strip(s);
    if r == [] {
      assert s == s[..Lead(s)] + s[Lead(s)..];
      assert s[Lead(s)..] == s[Lead(s) + |r|..];
    }
  }

  /** `strip` is determined by its result's shape: whitespace around a core
      that neither starts nor ends with whitespace is exactly what it removes. */
  lemma StripOfPadded(pre: string, core: string, post: string)
    requires AllSpace(pre) && AllSpace(post)
    requires |core| > 0 ==> !IsSpace(core[0]) && !IsSpace(core[|core| - 1])
    ensures Strip(pre + core + post) == core
  {
    var s := pre + core + post;
    var i, e := |pre|, |pre| + |core|;
    assert forall k :: 0 <= k < i ==> s[k] == pre[k];
    assert forall k :: e <= k < |s| ==> s[k] == post[k - e];
    if |core| == 0 {
      SkipSpacesAt(s, 0, |s|);
      SkipSpacesBackAt(s, |s|, |s|, |s|);
    } else {
      assert s[i] == core[0] && s[e - 1] == core[|core| - 1];
      SkipSpacesAt(s, 0, i);
      SkipSpacesBackAt(s, i, |s|, e);
      assert s[i..e] == core;
    }
  }

  /** Stripping only removes characters. */
  lemma StripSubset(s: string)
    ensures forall x :: x in Strip(s) ==> x in s
  {
    var r := Strip(s);
    forall x | x in r ensures x in s {
      var k :| 0 <= k < |r| && r[k] == x;
      assert r[k] == s[Lead(s) + k];
    }
  }

  /** Stripping is idempotent. */
  lemma StripIdempotent(s: string)
    ensures Strip(Strip(s)) == Strip(s)
  {
    var r := Strip(s);
    assert [] + r + [] == r;
    StripOfPadded([], r, []);
  }

  lemma AllSpaceConcat(a: string, b: string)
    requires AllSpace(a) && AllSpace(b)
    ensures AllSpace(a + b)
  {
    forall i | 0 <= i < |a + b| ensures IsSpace((a + b)[i]) {
      if i >= |a| { assert (a + b)[i] == b[i - |a|]; }
    }
  }

  /** `s` is its stripped core with the dropped whitespace around it. */
  lemma StripDecompose(s: string)
    ensures s == s[..Lead(s)] + Strip(s) + s[Lead(s) + |Strip(s)|..]
  {
  }

  lemma PaddedStripHelper(pre: string, lead: string, core: string, trail: string, post: string)
    requires AllSpace(pre) && AllSpace(lead) && AllSpace(trail) && AllSpace(post)
    requires |core| > 0 ==> !IsSpace(core[0]) && !IsSpace(core[|core| - 1])
    ensures Strip(pre + (lead + core + trail) + post) == core
  {
    AllSpaceConcat(pre, lead);
    AllSpaceConcat(trail, post);
    assert pre + (lead + core + trail) + post == (pre + lead) + core + (trail + post);
    StripOfPadded(pre + lead, core, trail + post);
  }

  /** Extra whitespace around a string does not change what `strip` returns. */
  lemma StripSpaceAround(pre: string, s: string, post: string)
    requires AllSpace(pre) && AllSpace(post)
    ensures Strip(pre + s + post) == Strip(s)
  {
    StripDecompose(s);
    PaddedStripHelper(pre, s[..Lead(s)], Strip(s), s[Lead(s) + |Strip(s)|..], post);
  }

  /** Whitespace added after a string does not change what `strip`
      returns. */
  lemma StripSpaceAfter(s: string, post: string)
    requires AllSpace(post)
    ensures Strip(s + post) == Strip(s)
  {
    StripDecompose(s);
    var lead, core, trail := s[..Lead(s)], Strip(s), s[Lead(s) + |Strip(s)|..];
    AllSpaceConcat(trail, post);
    assert s + post == lead + core + (trail + post);
    StripOfPadded(lead, core, trail + post);
  }

  // ---------------------------------------------------------------------
  // Substring search

  /** `pat` occurs in `s` starting at index `i`. */
  predicate OccursAt(s: string, pat: string, i: nat) {
    i + |pat| <= |s| && s[i..i + |pat|] == pat
  }

  /** Python's `pat in s` for strings. */
  predicate Contains(s: string, pat: string) {
    exists i: nat | i <= |s| :: OccursAt(s, pat, i)
  }

  /** The first occurrence of `pat` in `s` at or after `from`. */
  function FindFrom(s: string, pat: string, from: nat): (r: Option<nat>)
    requires from <= |s|
    ensures r.Some? ==> from <= r.value && OccursAt(s, pat, r.value)
    ensures r.Some? ==> forall j: nat :: from <= j < r.value ==> !OccursAt(s, pat, j)
    ensures r.None? ==> forall j: nat :: from <= j ==> !OccursAt(s, pat, j)
    decreases |s| - from
  {
    if OccursAt(s, pat, from) then Some(from)
    else if from == |s| then None
    else FindFrom(s, pat, from + 1)
  }

  /** `str.find`: the least index at which `pat` occurs, if any. */
  function Find(s: string, pat: string): (r: Option<nat>)
    ensures r.Some? <==> Contains(s, pat)
    ensures r.Some? ==> OccursAt(s, pat, r.value)
    ensures r.Some? ==> forall j: nat :: j < r.value ==> !OccursAt(s, pat, j)
  {
    FindFrom(s, pat, 0)
  }

  /** The inverse of `Split`: the parts glued together with `sep`. */
  function Join(parts: seq<string>, sep: string): string
    requires |parts| >= 1
  {
    if |parts| == 1 then parts[0] else parts[0] + sep + Join(parts[1..], sep)
  }

  /** `str.split(sep)` for a non-empty separator: the pieces between
      successive leftmost occurrences of `sep`. No piece contains `sep`,
      gluing the pieces back with `sep` gives `s`, and there is more than one
      piece exactly when `sep` occurs; then the first piece ends where the
      first occurrence starts. */
  function Split(s: string, sep: string): (parts: seq<string>)
    requires |sep| > 0
    ensures |parts| >= 1
    ensures Join(parts, sep) == s
    ensures forall k :: 0 <= k < |parts| ==> !Contains(parts[k], sep)
    ensures |parts| > 1 <==> Contains(s, sep)
    ensures |parts| > 1 ==> Find(s, sep) == Some(|parts[0]|)
    decreases |s|
  {
    match Find(s, sep)
    case None => [s]
    case Some(i) =>
      var head := s[..i];
      var rest := Split(s[i + |sep|..], sep);
      assert !Contains(head, sep) by {
        forall j: nat | OccursAt(head, sep, j) ensures false {
          assert s[j..j + |sep|] == head[j..j + |sep|];
          assert OccursAt(s, sep, j);
        }
      }
      assert s == head + sep + s[i + |sep|..];
      var parts := [head] + rest;
      assert parts[1..] == rest;
      assert forall k :: 1 <= k < |parts| ==> parts[k] == rest[k - 1];
      parts
  }

  /** The first two pieces of a split: the text before the first
      occurrence, and the text after it up to the next occurrence (or to the
      end when there is none). */
  lemma SplitFirstTwo(s: string, sep: string)
    requires |sep| > 0 && Contains(s, sep)
    ensures var i := Find(s, sep).value;
            var rest := s[i + |sep|..];
            |Split(s, sep)| >= 2 && Split(s, sep)[0] == s[..i] &&
            Split(s, sep)[1] == (if Contains(rest, sep) then rest[..Find(rest, sep).value] else rest)
  {
    var i := Find(s, sep).value;
    var rest := s[i + |sep|..];
    assert Split(s, sep) == [s[..i]] + Split(rest, sep);
    if Contains(rest, sep) {
      assert Split(rest, sep)[0] == rest[..Find(rest, sep).value];
    } else {
      assert Split(rest, sep) == [rest];
    }
  }

  // ---------------------------------------------------------------------
  // Character removal and case

  /** `s.replace(c, "")` for a one-character `c`. */
  function RemoveAll(s: string, c: char): (r: string)
    ensures c !in r
    ensures |r| <= |s|
    ensures c !in s ==> r == s
    ensures forall x :: x in r ==> x in s
  {
    if |s| == 0 then []
    else if s[0] == c then RemoveAll(s[1..], c)
    else [s[0]] + RemoveAll(s[1..], c)
  }

  /** Removing a character distributes over concatenation. */
  lemma {:induction false} RemoveAllConcat(a: string, b: string, c: char)
    ensures RemoveAll(a + b, c) == RemoveAll(a, c) + RemoveAll(b, c)
    decreases |a|
  {
    if |a| == 0 {
      assert a + b == b;
    } else {
      assert (a + b)[1..] == a[1..] + b;
      RemoveAllConcat(a[1..], b, c);
    }
  }

  /** Lower-casing of ASCII capitals; every other character is kept. */
  function LowerChar(c: char): char {
    if 'A' <= c <= 'Z' then (c as int + 32) as char else c
  }

  /** `str.lower()` restricted to ASCII letters: no capital is left, each
      capital becomes the letter 32 code points above it, and every other
      character stays where it is. */
  function Lower(s: string): (r: string)
    ensures |r| == |s|
    ensures forall i :: 0 <= i < |r| ==> !('A' <= r[i] <= 'Z')
    ensures forall i :: 0 <= i < |s| && !('A' <= s[i] <= 'Z') ==> r[i] == s[i]
    ensures forall i :: 0 <= i < |s| && 'A' <= s[i] <= 'Z' ==> r[i] as int == s[i] as int + 32
    ensures forall i :: 0 <= i < |s| ==> r[i] == LowerChar(s[i])
  {
    seq(|s|, i requires 0 <= i < |s| => LowerChar(s[i]))
  }

  /** Lower-casing twice is lower-casing once. */
  lemma LowerIdempotent(s: string)
    ensures Lower(Lower(s)) == Lower(s)
  {
  }
}

=== FILE: ui.dfy ===
/** The one line of the chat front end that shapes a query: a selected type
    other than `All` is appended as ` (type: X)`. */
module Ui {

  function UiQuery(query: string, selected: string): (q: string)
    ensures |query| <= |q| && q[..|query|] == query
    ensures q == query <==> selected == "All"
    ensures selected != "All" ==> q == query + " (type: " + selected + ")"
  {
    if selected != "All" then query + " (type: " + selected + ")" else query
  }
}

=== FILE: wrappers.dfy ===
/** The optional-value wrapper shared by the other modules. */
module Wrappers {

  /** A value that may be absent: Python's `None` versus a present value. */
  datatype Option<+T> = None | Some(value: T)
}
